=== FILE: README.md ===
# Crypto portfolio front end — import screen, upload panel and asset services

This project is a Dafny model of the core of an Angular front end for a
crypto-asset portfolio. Each module below corresponds to one source file.

- `ArquivoServico` models `ArquivoService`. It covers:
  - the file list held in the service's subject;
  - adding an uploaded file;
  - merging a wallet's still-local files (PENDENTE or PROCESSANDO) with a server listing;
  - mapping server records;
  - lookup by identifier;
  - the CSV upload check: extension, a 10 MB limit and an empty-file test.
- `CarteiraServico` models `CarteiraService`: the wallet list, the in-place `updateCarteira` merge of a request into the first wallet with an identifier, and the fixed development wallets and brokers.
- `Importacao` models `ImportacaoComponent`, the import screen. It covers:
  - loading wallets, with the development fallback;
  - selecting a wallet and following the service's file list;
  - the wallet form in create and edit mode;
  - the delete modal with its success and error callbacks;
  - the upload panel's events;
  - processing a file;
  - the alert;
  - the pure helpers the template uses: wallet search, broker short name, status class and label, error message per HTTP status.
- `FileUpload` models `FileUploadComponent`. It covers:
  - choosing or dropping a file, and its validation;
  - the simulated upload, which advances 10% per interval tick;
  - the 500 ms completion delay that emits the new file;
  - cancel and reset.
- `AtivoServico` models `AtivoService`: the seven-criterion asset filter of `getAtivos`, the portfolio summary (totals, profit, best and worst asset) and the portfolio distribution sorted by share.
- `AtivosTela` models `AtivosComponent`: the holdings table filter (text, type and broker) and the totals over the visible rows.
- `ConfirmationModal` models `ConfirmationModalComponent`: its confirm, cancel and backdrop events, which are suppressed while loading.

Some modules support the others:

- `Modelos` holds the shared records.
- `Texto` holds ASCII lowering, `trim`, `includes`, `endsWith` and `split(' ')[0]`.
- `Sequences` holds filter, find, stable sort and sum, with their lemmas.
- `Wrappers` holds `Option` and `Result`.

Things the code receives from outside become parameters:

- HTTP responses are `Result` values (`Ok` payload or `Err` with a status).
- `Date.now()` and `new Date()` are the integer `agora`.
- The browser `alert` is a returned flag.
- Timer callbacks are separate methods, called in the order the timers fire.

Components whose fields change in place are classes with `modifies` frames. Their methods state the new value of every field they touch, and list the untouched ones in `unchanged` clauses. Pure helpers are functions, with lemmas about them.

Every RxJS subscription stays alive after `selectCarteira`. The subject replays its value to each subscriber in order. So the screen's `arquivos` always follows the filter of the latest subscription. The model records that filter in the field `inscricao`.

## Model

| member | source | states |
|---|---|---|
| ArquivoServico.ArquivoService.AddArquivo | src/app/services/arquivo.service.ts:18-24 | the new file is first, followed by all previous files in their prior order; the length grows by one |
| ArquivoServico.ArquivoService.LoadArquivosByCarteira | src/app/services/arquivo.service.ts:27-60 | on success the list is the wallet's kept local files, in prior order, then the mapped server records, and that list is returned; on failure only the kept local files remain and the same error is passed on |
| ArquivoServico.ArquivosLocaisSpec | src/app/services/arquivo.service.ts:31-35 | `ArquivosLocais`: the kept files form an order-preserving subsequence holding exactly the files of that wallet whose status is PENDENTE or PROCESSANDO, each as often as in the input; other wallets' files and PROCESSADO/ERRO files are dropped |
| ArquivoServico.ArquivosLocaisIdempotent | src/app/services/arquivo.service.ts:50-55 | filtering the kept files again keeps them all, so two failed reloads in a row leave the same list |
| ArquivoServico.OuZero | src/app/services/arquivo.service.ts:70-72 | a missing number becomes 0 and a present one is kept (0 included) |
| ArquivoServico.CarteiraOu | src/app/services/arquivo.service.ts:68 | the nested wallet identifier when it is present and non-zero, otherwise the requested wallet |
| ArquivoServico.MapearArquivo | src/app/services/arquivo.service.ts:65-74 | each mapped field, including the size and operation count defaulting to 0, the wallet falling back to the requested one, and the upload date falling back to now |
| ArquivoServico.MapearLista | src/app/services/arquivo.service.ts:65 | the listing maps every record in order, one for one |
| ArquivoServico.MapearUploadAgrees | src/app/services/arquivo.service.ts:108-115 | the upload's mapping agrees with the listing's on every field the model's `Arquivo` has, and leaves date, operation count and notes unset |
| ArquivoServico.ArquivoService.GetArquivoById | src/app/services/arquivo.service.ts:80-91 | returns the first stored file with that id, and fails with an error naming the id exactly when no file has it |
| ArquivoServico.ArquivoService.UploadArquivo | src/app/services/arquivo.service.ts:94-130 | on success the mapped record is put first and returned; on failure the list is unchanged and the error passed on |
| ArquivoServico.ErrosCSVSpec | src/app/services/arquivo.service.ts:163-186 | `ErrosCSV`, the messages `validarArquivoCSV` collects: each message appears iff its check fails (lowered name not ending in ".csv"; size above 10485760; size 0); the two size messages never co-occur; the order is extension, size, empty; the list is empty iff the name ends in ".csv" and 0 < size <= 10485760 |
| ArquivoServico.SizeLimitBoundary | src/app/services/arquivo.service.ts:172-175 | exactly 10485760 bytes is accepted, and one byte more gets the too-large error |
| ArquivoServico.ValidarArquivoCSV | src/app/services/arquivo.service.ts:163-186 | the collected errors are those of the check above, and `valido` holds exactly when there are none |
| ArquivoServico.ArquivoService.constructor | src/app/services/arquivo.service.ts:12 | the service starts with an empty list |
| CarteiraServico.CarteiraService.constructor | src/app/services/carteira.service.ts:12 | the service starts with an empty list |
| CarteiraServico.CarteiraService.LoadCarteiras | src/app/services/carteira.service.ts:21-25 | a successful response replaces the list; a failure leaves it |
| CarteiraServico.Mesclar | src/app/services/carteira.service.ts:54 | each field the request carries overrides the wallet's value; every other field is kept |
| CarteiraServico.MesclarIdempotent | src/app/services/carteira.service.ts:54 | merging the same request twice is merging it once |
| CarteiraServico.CarteiraService.UpdateCarteira | src/app/services/carteira.service.ts:49-60 | only the first wallet with that id is merged with the request; the length and all other entries are unchanged; the merged wallet is returned; with no such wallet it fails and the list is untouched |
| CarteiraServico.GetCarteiraById | src/app/services/carteira.service.ts:38-41 | the result is a development wallet with that id, and nothing exactly when no development wallet has it |
| CarteiraServico.GetCarteiraByIdFound | src/app/services/carteira.service.ts:75-96 | exactly ids 43 and 44 are found, and 43 gives the first development wallet |
| Texto.FirstWord | src/app/components/importacao/importacao.ts:327 | `split(' ')[0]`: a prefix without spaces that is either the whole text or is followed by a space |
| Texto.TrimEmptyIff | src/app/components/importacao/importacao.ts:313 | a text trims to empty exactly when all its characters are white space |
| Importacao.GetCorretoraName | src/app/components/importacao/importacao.ts:324-332 | the first word of the nested broker's name; failing that, the first word of the first listed broker with the wallet's `corretoraId`; failing that, "N/A"; never contains a space |
| Importacao.CarteirasFiltradasSpec | src/app/components/importacao/importacao.ts:312-322 | `CarteirasFiltradas`, the `carteirasFiltradas` getter: a blank search term returns every wallet; every result is an order-preserving subsequence; for a non-blank term a wallet is kept iff its lowered name or lowered broker short name contains the lowered, untrimmed term, and each kept wallet occurs as often as in the input |
| Importacao.StatusClassMatchesText | src/app/components/importacao/importacao.ts:336-364 | `GetStatusClass` and `GetStatusText`: for each of the four known statuses, the CSS class is "status-" followed by the lowered label |
| Importacao.ClasseDoRotulo | src/app/components/importacao/importacao.ts:336-364 | for a label with a capital initial and no other capitals, "status-" plus the lowered initial plus the rest equals "status-" plus the lowered label |
| Importacao.LowerRotulo | src/app/components/importacao/importacao.ts:336-364 | such a label lowers to its lowered initial followed by the rest unchanged |
| Importacao.StatusUnknown | src/app/components/importacao/importacao.ts:336-364 | the class is empty exactly for an unknown status, and an unknown status is shown as its own text |
| Importacao.GetErrorMessageSpec | src/app/components/importacao/importacao.ts:214-228 | `GetErrorMessage`: 404, 409, 403, 500 and 0 map to five distinct messages; every other status, and only those, gets the generic message |
| Importacao.SubstituirCarteiraSpec | src/app/components/importacao/importacao.ts:147-149 | `SubstituirCarteira`, the edit branch of `onCarteiraSaved`: the replacement keeps the length; it replaces exactly the first wallet with the saved wallet's id; no match leaves the list unchanged |
| Importacao.ArquivosDaCarteiraAdd | src/app/components/importacao/importacao.ts:113-119 | a file added at the front of the service list appears first in its own wallet's view and in no other view; the rest of each view is unchanged |
| Importacao.ImportacaoComponent.constructor | src/app/components/importacao/importacao.ts:18-53 | given the component's own, still empty, file service, every field starts at its declared initial value |
| Importacao.ImportacaoComponent.LoadCorretoras | src/app/components/importacao/importacao.ts:95-97 | the brokers are the development brokers; nothing else changes |
| Importacao.ImportacaoComponent.LoadCarteiras | src/app/components/importacao/importacao.ts:69-70 | the wallet list is marked loading; nothing else changes |
| Importacao.ImportacaoComponent.CarteirasRecebidas | src/app/components/importacao/importacao.ts:73-92 | the wallets come from the response, or are the development wallets on error; loading ends; the first wallet is selected only when the list is non-empty and nothing was selected |
| Importacao.ImportacaoComponent.SelectCarteira | src/app/components/importacao/importacao.ts:101-126 | the wallet is selected; the screen follows that wallet's files from the service list; loading ends |
| Importacao.ImportacaoComponent.OpenNovaCarteira | src/app/components/importacao/importacao.ts:134-137 | the form opens in create mode |
| Importacao.ImportacaoComponent.OpenEditarCarteira | src/app/components/importacao/importacao.ts:139-142 | the form opens editing that wallet |
| Importacao.ImportacaoComponent.OnCarteiraSaved | src/app/components/importacao/importacao.ts:144-162 | edit mode: the list is the first-match replacement, and the selection is replaced only if a wallet matched and the selection has that id. Create mode: the wallet is appended and selected. Either way the form closes with nothing in edit |
| Importacao.ImportacaoComponent.SalvarEdicao | src/app/components/importacao/importacao.ts:145-153 | the edit branch alone: first-match replacement, and the selection follows only when it has the saved id |
| Importacao.ImportacaoComponent.OnCarteiraFormCanceled | src/app/components/importacao/importacao.ts:164-167 | the form closes with nothing in edit; nothing else changes |
| Importacao.ImportacaoComponent.DeletarCarteira | src/app/components/importacao/importacao.ts:171-174 | the modal opens for that wallet |
| Importacao.ImportacaoComponent.ConfirmarExclusaoCarteira | src/app/components/importacao/importacao.ts:176-181 | the request only: with no wallet to delete nothing changes; otherwise the modal becomes busy and every other field is unchanged until a callback answers |
| Importacao.ImportacaoComponent.ExclusaoConcluida | src/app/components/importacao/importacao.ts:182-197 | the success callback, which needs the wallet still in the modal and reads it there: a success alert naming it, the reload starts, the selection and its files are cleared only if they were that wallet, and the modal closes, no longer busy |
| Importacao.ImportacaoComponent.ExclusaoFalhou | src/app/components/importacao/importacao.ts:198-204 | the error callback: a danger alert with the status's message; the modal stays open with its wallet and is no longer busy |
| Importacao.ImportacaoComponent.FecharModalExclusao | src/app/components/importacao/importacao.ts:208-212 | the modal is closed, has no wallet and is not busy; nothing else changes |
| Importacao.ImportacaoComponent.OpenUploadArquivo | src/app/components/importacao/importacao.ts:231-237 | without a selection the browser alert is raised and nothing changes; otherwise the upload panel opens |
| Importacao.ImportacaoComponent.OnUploadComplete | src/app/components/importacao/importacao.ts:239-243 | the file goes first in the service list; the latest subscription's wallet view is refreshed from it; the panel closes |
| Importacao.ImportacaoComponent.OnUploadCanceled | src/app/components/importacao/importacao.ts:245-247 | the panel closes; nothing else changes |
| Importacao.ImportacaoComponent.ProcessarArquivo | src/app/components/importacao/importacao.ts:249-288 | nothing changes unless the file is PENDENTE and a wallet is selected. A file with a missing or zero id only raises the no-id danger alert. Otherwise the alert announces the operation count or the failure, and loading ends |
| Importacao.ImportacaoComponent.ShowAlertMessage | src/app/components/importacao/importacao.ts:387-391 | the alert shows that message and type |
| Importacao.ImportacaoComponent.HideAlert | src/app/components/importacao/importacao.ts:400-403 | the alert is hidden and its text cleared |
| FileUpload.NovoArquivo | src/app/components/file-upload/file-upload.component.ts:115-123 | the new file is PENDENTE, with the selected file's name and size, the wallet id and now as id and date; blank notes become absent, and other notes are stored trimmed |
| FileUpload.FileUploadComponent.constructor | src/app/components/file-upload/file-upload.component.ts:15-25 | the inputs bound by the parent (`carteiraId`, `isVisible`) take the given values; every other field starts at its declared default; the panel invariant holds |
| FileUpload.FileUploadComponent.SetObservacoes | src/app/components/file-upload/file-upload.component.ts:21 | the notes binding changes only the notes |
| FileUpload.FileUploadComponent.HandleFileSelection | src/app/components/file-upload/file-upload.component.ts:57-69 | a valid file becomes the selection with no errors; an invalid one clears the selection and stores exactly the validator's errors |
| FileUpload.FileUploadComponent.OnFileSelected | src/app/components/file-upload/file-upload.component.ts:29-35 | with no file nothing changes; otherwise the first file is handled as above |
| FileUpload.FileUploadComponent.OnDragOver | src/app/components/file-upload/file-upload.component.ts:37-40 | the drop zone is highlighted |
| FileUpload.FileUploadComponent.OnDragLeave | src/app/components/file-upload/file-upload.component.ts:42-45 | the highlight is off |
| FileUpload.FileUploadComponent.OnDrop | src/app/components/file-upload/file-upload.component.ts:47-55 | the highlight is off, and the first dropped file, if any, is handled as above |
| FileUpload.FileUploadComponent.RemoveFile | src/app/components/file-upload/file-upload.component.ts:71-75 | the selection and errors are cleared and progress is 0; notes and the uploading flag are untouched |
| FileUpload.FileUploadComponent.UploadFile | src/app/components/file-upload/file-upload.component.ts:77-86 | the upload starts from 0% exactly when `canUpload` held (a file is selected, the wallet id is non-null and non-zero, no upload runs, and there are no errors); otherwise nothing changes |
| FileUpload.FileUploadComponent.Tick | src/app/components/file-upload/file-upload.component.ts:107-131 | each tick adds 10. At 100 the interval stops and the new file is built from the selected file, the wallet and the notes. If the file was removed meanwhile, the tick fails and the panel stays uploading with no completion pending |
| FileUpload.FileUploadComponent.ConcluirUpload | src/app/components/file-upload/file-upload.component.ts:125-128 | the pending file is emitted once and the form is reset |
| FileUpload.FileUploadComponent.OnCancelClick | src/app/components/file-upload/file-upload.component.ts:133-141 | while uploading nothing changes and nothing is emitted; otherwise the form resets and one `cancelled` is emitted |
| FileUpload.FileUploadComponent.ResetForm | src/app/components/file-upload/file-upload.component.ts:143-150 | every form field is back to its declared initial value |
| AtivoServico.GetAtivosSpec | src/app/services/ativo.service.ts:12-40 | `GetAtivos`: without a filter the list is returned unchanged. With one, the result is an order-preserving subsequence holding exactly the assets that pass every criterion the filter carries: case-insensitive substring for symbol and name, inclusive bounds, sign of the profit with a missing one counted as 0, and equal active flag |
| AtivoServico.GetAtivosIsConjunction | src/app/services/ativo.service.ts:15-37 | `GetAtivos`: the seven filters applied one after another equal a single filter by the conjunction of the criteria |
| AtivoServico.GetAtivosFirstSteps | src/app/services/ativo.service.ts:16-27 | the first four filters in sequence equal one filter by the first four criteria |
| AtivoServico.PassaAteSete | src/app/services/ativo.service.ts:15-37 | passing all seven criteria one by one is passing the whole filter |
| AtivoServico.GetAtivosVacuousFilter | src/app/services/ativo.service.ts:15-37 | `GetAtivos`: a filter whose keys are all absent, empty, zero or false, and which has no `ativo` key, returns the list unchanged |
| AtivoServico.SummaryTotals | src/app/services/ativo.service.ts:43-58 | `GetPortfolioSummary`: the invested and current totals count active assets only (an inactive asset counts as 0, a missing current value as 0); the count is the number of active assets |
| AtivoServico.SummaryProfit | src/app/services/ativo.service.ts:48-49 | `GetPortfolioSummary`: the profit is current minus invested; its percentage is 0 without a positive investment, otherwise the profit per 100 invested |
| AtivoServico.PorCento | src/app/services/ativo.service.ts:49 | a percentage of a positive whole, times the whole, is 100 times the part |
| AtivoServico.SummaryBestWorst | src/app/services/ativo.service.ts:51-66 | `GetPortfolioSummary`: the best and the worst asset exist exactly when some asset is active. Each is an active asset, reported with its own profit. The best has a profit at least that of every active asset, the worst at most |
| AtivoServico.Entradas | src/app/services/ativo.service.ts:76-81 | one entry per asset, in order |
| AtivoServico.DistribuicaoSpec | src/app/services/ativo.service.ts:72-85 | `GetDistribuicaoPortfolio`: one entry per active asset (a permutation of the mapped entries), sorted by descending share; every share is 0 when the portfolio is worth nothing |
| AtivoServico.SumParticipacao | src/app/services/ativo.service.ts:79 | against a positive total, the shares add up to the list's value as a percentage of that total |
| AtivoServico.DistribuicaoTotal | src/app/services/ativo.service.ts:72-85 | `GetDistribuicaoPortfolio`: when the portfolio is worth something, the shares add up to exactly 100 |
| AtivosTela.FiltrarAtivosSpec | src/app/components/ativos/ativos.ts:188-196 | `FiltrarAtivos`, the filter `aplicarFiltro` applies: the visible rows are an order-preserving subsequence of the holdings. A row is visible iff it passes the trimmed, lowered text search and the exact type and broker filters. Each visible row occurs as often as in the holdings. A blank search with empty filters shows everything |
| AtivosTela.AtivosComponent.constructor | src/app/components/ativos/ativos.ts:49-102 | the screen starts with the example holdings and no filters, and is consistent: the rows follow the filters and the totals are those of the rows |
| AtivosTela.AtivosComponent.AlterarFiltros | src/app/components/ativos/ativos.ts:49-51 | the filter bindings change only the filters |
| AtivosTela.AtivosComponent.AplicarFiltro | src/app/components/ativos/ativos.ts:188-202 | the rows follow the current filters; invested and current totals are the sums over the rows, and profit is their difference; holdings and filters are untouched |
| AtivosTela.AtivosComponent.TotalPLPct | src/app/components/ativos/ativos.ts:96-98 | 0 without a positive investment; otherwise the profit per 100 invested |
| AtivosTela.ConstrucaoMostraTudo | src/app/components/ativos/ativos.ts:56-102 | right after construction both example holdings are visible, with totals 56200 invested, 67900 current and 11700 profit |
| ConfirmationModal.ConfirmationModalComponent.constructor | src/app/components/confirmation-modal/confirmation-modal.component.ts:12-19 | the inputs bound by the parent (`isVisible`, `isLoading`) take the given values; every other input starts at its declared default; nothing has been emitted |
| ConfirmationModal.ConfirmationModalComponent.SetLoading | src/app/components/confirmation-modal/confirmation-modal.component.ts:19 | rebinding `isLoading` changes nothing else |
| ConfirmationModal.ConfirmationModalComponent.OnConfirm | src/app/components/confirmation-modal/confirmation-modal.component.ts:24-28 | one `confirmed` is emitted exactly when not loading; no input changes |
| ConfirmationModal.ConfirmationModalComponent.OnCancel | src/app/components/confirmation-modal/confirmation-modal.component.ts:30-34 | one `cancelled` is emitted exactly when not loading; no input changes |
| ConfirmationModal.ConfirmationModalComponent.OnBackdropClick | src/app/components/confirmation-modal/confirmation-modal.component.ts:36-40 | a click on the backdrop itself cancels when not loading; a click that bubbled up from the dialog does nothing |

## Left out

- HTTP and RxJS: requests, observables and subscriptions are not modelled. Each callback is a method that takes the response as a `Result`.
- Timing between async responses: the model runs each callback to completion, one at a time. The order of asynchronous responses is the caller's choice.
- Importacao.ImportacaoComponent.ExclusaoConcluida: the source's success callback reads `carteiraParaExcluir!` when the response arrives; if the modal was closed first, that read fails at run time. The model requires the wallet to be still there and does not model the failure.
- `Importacao.ImportacaoComponent.SelectCarteira`: the request that `loadArquivosByCarteira` builds in the service is never subscribed to. So the screen never runs the server merge. The model only follows the service list; the merge itself is `LoadArquivosByCarteira`.
- `processarArquivo` calls `ArquivoService.processarArquivo`, which `ArquivoService` does not define. Its outcome (operation count or failure) is a parameter.
- `deletarArquivo` asks a browser `confirm`. It then does nothing without a selected wallet, and otherwise sends `deleteArquivo`, whose callbacks only log. On success, `deleteArquivo` builds a `loadArquivosByCarteira` request (src/app/services/arquivo.service.ts:147) that is never subscribed to. Nothing calls `downloadArquivo` or `getStatusArquivo`. None of the four changes modelled state.
- The `setTimeout` that hides success and info alerts after 5 seconds is left to the caller, who calls `HideAlert` later.
- The interval and delay of the simulated upload are the methods `Tick` and `ConcluirUpload`. The timers' real-time spacing is not modelled.
- `FileUpload.FileUploadComponent.Tick`: models the exception thrown when the file was removed mid-upload only as a failure flag. The panel then stays uploading.
- Changes to `carteiraId` while an upload runs are not modelled.
- `formatFileSize`, `formatDate`, `formatNumber` and every `Intl` formatting are left out: they are floating point and locale formatting.
- The charts (`echarts`), the resize handler and `setPeriodo` are left out: they are display only.
- The hard-coded dashboard figures of `AtivosComponent` are left out.
- `getEvolucaoPatrimonial` and `getConsolidacaoMensal` are left out: they draw from `Math.random` and the clock.
- `getMetricasAvancadas` is left out: it returns constants.
- `getMockAtivos` is not copied. The asset list is a parameter of `GetAtivos`, `GetPortfolioSummary` and `GetDistribuicaoPortfolio`.
- ArquivoServico.MapearUpload: does not keep the nested `carteira` object that `uploadArquivo` attaches to the mapped record. The `Arquivo` record has no such field, and no code reads it.
- ArquivoServico.ArquivoService.LoadArquivosByCarteira: one `agora` stands for every record's missing upload date. The code evaluates `new Date()` once per record, so the instants may differ slightly.
- Numbers: amounts are exact reals, so floating-point rounding, `NaN` and infinities are not modelled. File sizes and ids are integers.
- Text: `toLowerCase` is modelled for ASCII letters only. `trim` is modelled for ASCII white space only, not Unicode spaces.
- Dates are integer timestamps; date parsing is not modelled.
- The wallet form (`CarteiraFormComponent`), the operations screen and service, the routes and the test files are not part of this model.
- Monthly consolidation and position roll-up: src/app/models/operacao.model.ts:93-131 declares shapes for monthly consolidation and position summaries, but no code computes them, so they are left out.

=== FILE: arquivo_service.dfy ===
/** `ArquivoService` (src/app/services/arquivo.service.ts): the list of imported
    files held in its subject, the merge of local files with a server listing,
    the mapping of server records, the lookup by identifier and the check a
    CSV upload must pass. HTTP responses and the clock are parameters. */
module ArquivoServico {
  import opened Wrappers
  import opened Sequences
  import opened Texto
  import opened Modelos

  /** A file record as the API returns it. `idCarteiraAninhado` is
      `carteira?.idCarteira`; `dataCriacao` is the creation date, already read
      as a timestamp. */
  datatype ArquivoResposta = ArquivoResposta(
    idArquivo: Option<int>,
    nome: string,
    idCarteiraAninhado: Option<int>,
    dataCriacao: Option<int>,
    tamanhoBytes: Option<int>,
    status: string,
    totalOperacoes: Option<int>,
    observacoes: Option<string>)

  /** `UploadArquivoRequest`. */
  datatype UploadArquivoRequest = UploadArquivoRequest(arquivo: File, carteiraId: int, observacoes: Option<string>)

  /** The error of `getArquivoById`. */
  datatype ErroBusca = ArquivoNaoEncontrado(id: int)

  /** `x || 0` for an optional number: an absent or zero value gives 0. */
  function OuZero(x: Option<int>): (r: int)
    ensures x.None? ==> r == 0
    ensures x.Some? ==> r == x.value
  {
    if x.Some? && x.value != 0 then x.value else 0
  }

  /** `carteira?.idCarteira || carteiraId`: the nested wallet identifier when it
      is present and not 0, otherwise the wallet that was asked for. */
  function CarteiraOu(aninhado: Option<int>, carteiraId: int): (r: int)
    ensures aninhado.None? || aninhado == Some(0) ==> r == carteiraId
    ensures aninhado.Some? && aninhado.value != 0 ==> r == aninhado.value
  {
    if aninhado.Some? && aninhado.value != 0 then aninhado.value else carteiraId
  }

  /** The mapping of one record in `getArquivosByCarteira`; `agora` is `new Date()`. */
  function MapearArquivo(r: ArquivoResposta, carteiraId: int, agora: int): (a: Arquivo)
    ensures a.id == r.idArquivo && a.nome == r.nome && a.status == r.status
    ensures a.observacoes == r.observacoes
    ensures a.carteiraId == CarteiraOu(r.idCarteiraAninhado, carteiraId)
    ensures a.tamanho == OuZero(r.tamanhoBytes)
    ensures a.totalOperacoes == Some(OuZero(r.totalOperacoes))
    ensures a.dataUpload == Some(if r.dataCriacao.Some? && r.dataCriacao.value != 0 then r.dataCriacao.value else agora)
  {
    Arquivo(
      r.idArquivo,
      r.nome,
      CarteiraOu(r.idCarteiraAninhado, carteiraId),
      Some(if r.dataCriacao.Some? && r.dataCriacao.value != 0 then r.dataCriacao.value else agora),
      OuZero(r.tamanhoBytes),
      r.status,
      Some(OuZero(r.totalOperacoes)),
      r.observacoes)
  }

  /** `response.map(...)` in `getArquivosByCarteira`. */
  function MapearLista(rs: seq<ArquivoResposta>, carteiraId: int, agora: int): (as_: seq<Arquivo>)
    ensures |as_| == |rs|
    ensures forall i :: 0 <= i < |rs| ==> as_[i] == MapearArquivo(rs[i], carteiraId, agora)
  {
    if rs == [] then [] else [MapearArquivo(rs[0], carteiraId, agora)] + MapearLista(rs[1..], carteiraId, agora)
  }

  /** The mapping in `uploadArquivo`: as for a listing, but without upload date,
      operation count or notes. */
  function MapearUpload(r: ArquivoResposta, carteiraId: int): Arquivo
  {
    Arquivo(r.idArquivo, r.nome, CarteiraOu(r.idCarteiraAninhado, carteiraId), None,
            OuZero(r.tamanhoBytes), r.status, None, None)
  }

  /** The upload mapping agrees with the listing mapping on every field it sets. */
  lemma MapearUploadAgrees(r: ArquivoResposta, carteiraId: int, agora: int)
    ensures MapearUpload(r, carteiraId)
         == MapearArquivo(r, carteiraId, agora).(dataUpload := None, totalOperacoes := None, observacoes := None)
  {
  }

  /** The files a reload keeps: those of wallet `carteiraId` that are still
      PENDENTE or PROCESSANDO. */
  predicate EhLocal(carteiraId: int, a: Arquivo)
  {
    a.carteiraId == carteiraId && (a.status == PENDENTE || a.status == PROCESSANDO)
  }

  function ArquivosLocais(arquivos: seq<Arquivo>, carteiraId: int): seq<Arquivo>
  {
    Filter(arquivos, a => EhLocal(carteiraId, a))
  }

  /** The kept files are, in their order, exactly the pending or processing
      files of that wallet, each as many times as it occurs: other wallets'
      files and PROCESSADO/ERRO files go. */
  lemma ArquivosLocaisSpec(arquivos: seq<Arquivo>, carteiraId: int)
    ensures IsSubseq(ArquivosLocais(arquivos, carteiraId), arquivos)
    ensures forall a :: a in ArquivosLocais(arquivos, carteiraId) <==>
                        a in arquivos && a.carteiraId == carteiraId && (a.status == PENDENTE || a.status == PROCESSANDO)
    ensures forall a :: multiset(ArquivosLocais(arquivos, carteiraId))[a] ==
                        if EhLocal(carteiraId, a) then multiset(arquivos)[a] else 0
  {
    FilterIsSubseq(arquivos, a => EhLocal(carteiraId, a));
    forall a
      ensures a in ArquivosLocais(arquivos, carteiraId) <==> a in arquivos && EhLocal(carteiraId, a)
      ensures multiset(ArquivosLocais(arquivos, carteiraId))[a] == if EhLocal(carteiraId, a) then multiset(arquivos)[a] else 0
    {
      FilterMember(arquivos, a => EhLocal(carteiraId, a), a);
      FilterCount(arquivos, a => EhLocal(carteiraId, a), a);
    }
  }

  /** Reloading twice with the same failure keeps the same files: the kept set
      is already closed under the filter. */
  lemma ArquivosLocaisIdempotent(arquivos: seq<Arquivo>, carteiraId: int)
    ensures ArquivosLocais(ArquivosLocais(arquivos, carteiraId), carteiraId) == ArquivosLocais(arquivos, carteiraId)
  {
    var p := a => EhLocal(carteiraId, a);
    FilterCompose(arquivos, p, p, p);
  }

  /** The largest accepted upload, 10 MB. */
  const MaxSize: int := 10 * 1024 * 1024

  const ErroExtensao: string := "Arquivo deve ter extensão .csv"
  const ErroMuitoGrande: string := "Arquivo muito grande. Tamanho máximo: 10MB"
  const ErroVazio: string := "Arquivo está vazio"

  /** The errors `validarArquivoCSV` reports, in the order it checks them. */
  function ErrosCSV(arquivo: File): seq<string>
  {
    (if !EndsWith(ToLower(arquivo.name), ".csv") then [ErroExtensao] else [])
    + (if arquivo.size > MaxSize then [ErroMuitoGrande] else [])
    + (if arquivo.size == 0 then [ErroVazio] else [])
  }

  /** What the error list says about a file: each message appears exactly when
      its check fails, the two size messages never together, always in the
      order extension, size, empty. */
  lemma ErrosCSVSpec(arquivo: File)
    ensures ErroExtensao in ErrosCSV(arquivo) <==> !EndsWith(ToLower(arquivo.name), ".csv")
    ensures ErroMuitoGrande in ErrosCSV(arquivo) <==> arquivo.size > 10485760
    ensures ErroVazio in ErrosCSV(arquivo) <==> arquivo.size == 0
    ensures !(ErroMuitoGrande in ErrosCSV(arquivo) && ErroVazio in ErrosCSV(arquivo))
    ensures IsSubseq(ErrosCSV(arquivo), [ErroExtensao, ErroMuitoGrande, ErroVazio])
    ensures ErrosCSV(arquivo) == [] <==>
              EndsWith(ToLower(arquivo.name), ".csv") && 0 < arquivo.size <= 10485760
  {
    assert ErroExtensao != ErroMuitoGrande && ErroExtensao != ErroVazio && ErroMuitoGrande != ErroVazio by {
      assert ErroExtensao[0] == 'A' && ErroMuitoGrande[8] == 'm' && ErroVazio[8] == 'e' && ErroExtensao[8] == 'd';
    }
    var ez: seq<string> := if arquivo.size == 0 then [ErroVazio] else [];
    var ey := (if arquivo.size > MaxSize then [ErroMuitoGrande] else []) + ez;
    SubseqStep(arquivo.size == 0, ErroVazio, [], []);
    assert ([] + ez) == ez;
    SubseqStep(arquivo.size > MaxSize, ErroMuitoGrande, ez, [ErroVazio]);
    SubseqStep(!EndsWith(ToLower(arquivo.name), ".csv"), ErroExtensao, ey, [ErroMuitoGrande, ErroVazio]);
    assert ErrosCSV(arquivo) == (if !EndsWith(ToLower(arquivo.name), ".csv") then [ErroExtensao] else []) + ey;
  }

  /** Exactly 10 MB is accepted; one byte more is too large. */
  lemma SizeLimitBoundary(name: string)
    ensures ErroMuitoGrande !in ErrosCSV(File(name, 10485760))
    ensures ErroMuitoGrande in ErrosCSV(File(name, 10485761))
  {
    ErrosCSVSpec(File(name, 10485760));
    ErrosCSVSpec(File(name, 10485761));
  }

  /** The result of `validarArquivoCSV`. */
  datatype Validacao = Validacao(valido: bool, erros: seq<string>)

  /** `validarArquivoCSV`: collects the failed checks one after the other; the
      file is valid exactly when none failed. */
  method ValidarArquivoCSV(arquivo: File) returns (v: Validacao)
    ensures v.erros == ErrosCSV(arquivo)
    ensures v.valido <==> v.erros == []
  {
    var erros: seq<string> := [];
    if !EndsWith(ToLower(arquivo.name), ".csv") {
      erros := erros + [ErroExtensao];
    }
    var maxSize := 10 * 1024 * 1024;
    if arquivo.size > maxSize {
      erros := erros + [ErroMuitoGrande];
    }
    if arquivo.size == 0 {
      erros := erros + [ErroVazio];
    }
    v := Validacao(|erros| == 0, erros);
  }

  class ArquivoService {
    /** The current value of `arquivosSubject`. */
    var arquivos: seq<Arquivo>

    constructor ()
      ensures arquivos == []
    {
      arquivos := [];
    }

    /** `addArquivo`: the new file goes first, the earlier ones follow in order. */
    method AddArquivo(arquivo: Arquivo)
      modifies this
      ensures arquivos == [arquivo] + old(arquivos)
      ensures |arquivos| == |old(arquivos)| + 1 && arquivos[0] == arquivo && arquivos[1..] == old(arquivos)
    {
      arquivos := [arquivo] + arquivos;
    }

    /** `loadArquivosByCarteira` given the outcome of the listing request: on
        success the kept local files come first, then the server's records
        mapped; on failure only the kept local files remain and the error is
        passed on. */
    method LoadArquivosByCarteira(carteiraId: int, resposta: Result<seq<ArquivoResposta>, ErroHttp>, agora: int)
      returns (r: Result<seq<Arquivo>, ErroHttp>)
      modifies this
      ensures resposta.Ok? ==>
                && arquivos == ArquivosLocais(old(arquivos), carteiraId) + MapearLista(resposta.value, carteiraId, agora)
                && r == Ok(arquivos)
      ensures resposta.Err? ==>
                arquivos == ArquivosLocais(old(arquivos), carteiraId) && r == Err(resposta.error)
    {
      var locais := ArquivosLocais(arquivos, carteiraId);
      match resposta {
        case Ok(lista) =>
          var combinados := locais + MapearLista(lista, carteiraId, agora);
          arquivos := combinados;
          r := Ok(combinados);
        case Err(erro) =>
          arquivos := locais;
          r := Err(erro);
      }
    }

    /** `getArquivoById`: the first file of the current list with identifier
        `id`, or an error naming `id` when there is none. */
    function GetArquivoById(id: int): (r: Result<Arquivo, ErroBusca>)
      reads this
      ensures r.Err? <==> forall i :: 0 <= i < |arquivos| ==> arquivos[i].id != Some(id)
      ensures r.Err? ==> r.error == ArquivoNaoEncontrado(id)
      ensures r.Ok? ==> exists i :: 0 <= i < |arquivos| && arquivos[i] == r.value && r.value.id == Some(id) &&
                                    forall j :: 0 <= j < i ==> arquivos[j].id != Some(id)
    {
      match Find(arquivos, (a: Arquivo) => a.id == Some(id))
      case None => Err(ArquivoNaoEncontrado(id))
      case Some(a) => Ok(a)
    }

    /** `uploadArquivo` given the outcome of the upload request: on success the
        mapped record is put first and returned; on failure nothing changes. */
    method UploadArquivo(request: UploadArquivoRequest, resposta: Result<ArquivoResposta, ErroHttp>)
      returns (r: Result<Arquivo, ErroHttp>)
      modifies this
      ensures resposta.Ok? ==>
                && r == Ok(MapearUpload(resposta.value, request.carteiraId))
                && arquivos == [r.value] + old(arquivos)
      ensures resposta.Err? ==> r == Err(resposta.error) && arquivos == old(arquivos)
    {
      match resposta {
        case Ok(resp) =>
          var arquivoMapeado := MapearUpload(resp, request.carteiraId);
          arquivos := [arquivoMapeado] + arquivos;
          r := Ok(arquivoMapeado);
        case Err(erro) =>
          r := Err(erro);
      }
    }
  }
}

=== FILE: ativo_service.dfy ===
/** `AtivoService` (src/app/services/ativo.service.ts): the asset filter of
    `getAtivos`, the portfolio summary and the portfolio distribution, each over
    an asset list given as a parameter. Money and percentages are exact reals. */
module AtivoServico {
  import opened Wrappers
  import opened Sequences
  import opened Texto

  /** An asset (`Ativo`), with the fields the service reads. */
  datatype Ativo = Ativo(
    id: Option<int>,
    criptomoeda: string,
    simbolo: string,
    valorInvestido: real,
    valorAtual: Option<real>,
    percentualLucro: Option<real>,
    ativo: bool)

  /** `AtivoFilter`: `None` is a key the filter object does not carry. */
  datatype AtivoFilter = AtivoFilter(
    simbolo: Option<string>,
    criptomoeda: Option<string>,
    valorMinimoInvestido: Option<real>,
    valorMaximoInvestido: Option<real>,
    apenasComLucro: Option<bool>,
    apenasComPrejuizo: Option<bool>,
    ativo: Option<bool>)

  /** Truthiness of an optional string: present and non-empty. */
  predicate TextoDefinido(s: Option<string>)
  {
    s.Some? && s.value != ""
  }

  /** Truthiness of an optional number: present and non-zero. */
  predicate NumeroDefinido(x: Option<real>)
  {
    x.Some? && x.value != 0.0
  }

  /** `x || 0` for an optional number. */
  function OuZero(x: Option<real>): real
  {
    if x.Some? then x.value else 0.0
  }

  function Pct(a: Ativo): real
  {
    OuZero(a.percentualLucro)
  }

  function Atual(a: Ativo): real
  {
    OuZero(a.valorAtual)
  }

  function Investido(a: Ativo): real
  {
    a.valorInvestido
  }

  // ---------------------------------------------------------------- getAtivos

  predicate CombinaSimbolo(f: AtivoFilter, a: Ativo)
  {
    f.simbolo.Some? && Contains(ToLower(a.simbolo), ToLower(f.simbolo.value))
  }

  predicate CombinaCripto(f: AtivoFilter, a: Ativo)
  {
    f.criptomoeda.Some? && Contains(ToLower(a.criptomoeda), ToLower(f.criptomoeda.value))
  }

  predicate AcimaDoMinimo(f: AtivoFilter, a: Ativo)
  {
    f.valorMinimoInvestido.Some? && a.valorInvestido >= f.valorMinimoInvestido.value
  }

  predicate AbaixoDoMaximo(f: AtivoFilter, a: Ativo)
  {
    f.valorMaximoInvestido.Some? && a.valorInvestido <= f.valorMaximoInvestido.value
  }

  predicate MesmoEstado(f: AtivoFilter, a: Ativo)
  {
    f.ativo.Some? && a.ativo == f.ativo.value
  }

  function PorSimbolo(f: AtivoFilter): Ativo -> bool
  {
    (a: Ativo) => CombinaSimbolo(f, a)
  }

  function PorCripto(f: AtivoFilter): Ativo -> bool
  {
    (a: Ativo) => CombinaCripto(f, a)
  }

  function PorMinimo(f: AtivoFilter): Ativo -> bool
  {
    (a: Ativo) => AcimaDoMinimo(f, a)
  }

  function PorMaximo(f: AtivoFilter): Ativo -> bool
  {
    (a: Ativo) => AbaixoDoMaximo(f, a)
  }

  function PorEstado(f: AtivoFilter): Ativo -> bool
  {
    (a: Ativo) => MesmoEstado(f, a)
  }

  predicate ComLucro(a: Ativo)
  {
    Pct(a) > 0.0
  }

  predicate ComPrejuizo(a: Ativo)
  {
    Pct(a) < 0.0
  }

  /** `getAtivos` over `ativos`: each criterion the filter carries (a truthy
      value, or for `ativo` any defined value) narrows the list in turn. */
  function GetAtivos(ativos: seq<Ativo>, filter: Option<AtivoFilter>): seq<Ativo>
  {
    if filter.None? then ativos
    else
      var f := filter.value;
      var a1 := if TextoDefinido(f.simbolo) then Filter(ativos, PorSimbolo(f)) else ativos;
      var a2 := if TextoDefinido(f.criptomoeda) then Filter(a1, PorCripto(f)) else a1;
      var a3 := if NumeroDefinido(f.valorMinimoInvestido) then Filter(a2, PorMinimo(f)) else a2;
      var a4 := if NumeroDefinido(f.valorMaximoInvestido) then Filter(a3, PorMaximo(f)) else a3;
      var a5 := if f.apenasComLucro == Some(true) then Filter(a4, ComLucro) else a4;
      var a6 := if f.apenasComPrejuizo == Some(true) then Filter(a5, ComPrejuizo) else a5;
      if f.ativo.Some? then Filter(a6, PorEstado(f)) else a6
  }

  /** The whole filter as one predicate: the conjunction of the criteria it
      carries. Names are matched case-insensitively as substrings, the bounds
      inclusively, a missing profit counts as 0, and a bound of 0 or an empty
      name imposes nothing. */
  predicate PassaFiltro(f: AtivoFilter, a: Ativo)
  {
    && (TextoDefinido(f.simbolo) ==> CombinaSimbolo(f, a))
    && (TextoDefinido(f.criptomoeda) ==> CombinaCripto(f, a))
    && (NumeroDefinido(f.valorMinimoInvestido) ==> AcimaDoMinimo(f, a))
    && (NumeroDefinido(f.valorMaximoInvestido) ==> AbaixoDoMaximo(f, a))
    && (f.apenasComLucro == Some(true) ==> ComLucro(a))
    && (f.apenasComPrejuizo == Some(true) ==> ComPrejuizo(a))
    && (f.ativo.Some? ==> MesmoEstado(f, a))
  }

  /** Whether the filter's `k`-th criterion (1 to 7, in the order `getAtivos`
      applies them) is on. */
  predicate Aplica(f: AtivoFilter, k: nat)
  {
    if k == 1 then TextoDefinido(f.simbolo)
    else if k == 2 then TextoDefinido(f.criptomoeda)
    else if k == 3 then NumeroDefinido(f.valorMinimoInvestido)
    else if k == 4 then NumeroDefinido(f.valorMaximoInvestido)
    else if k == 5 then f.apenasComLucro == Some(true)
    else if k == 6 then f.apenasComPrejuizo == Some(true)
    else k == 7 && f.ativo.Some?
  }

  /** The test of the `k`-th criterion. */
  predicate Teste(f: AtivoFilter, k: nat, a: Ativo)
  {
    if k == 1 then CombinaSimbolo(f, a)
    else if k == 2 then CombinaCripto(f, a)
    else if k == 3 then AcimaDoMinimo(f, a)
    else if k == 4 then AbaixoDoMaximo(f, a)
    else if k == 5 then ComLucro(a)
    else if k == 6 then ComPrejuizo(a)
    else MesmoEstado(f, a)
  }

  /** The asset passes the first `k` criteria. */
  predicate PassaAte(f: AtivoFilter, k: nat, a: Ativo)
  {
    k == 0 || (PassaAte(f, k - 1, a) && (!Aplica(f, k) || Teste(f, k, a)))
  }

  function Ate(f: AtivoFilter, k: nat): Ativo -> bool
  {
    (a: Ativo) => PassaAte(f, k, a)
  }

  /** The first four steps of `getAtivos` filter by the first four criteria. */
  lemma GetAtivosFirstSteps(ativos: seq<Ativo>, f: AtivoFilter)
    ensures var a1 := if TextoDefinido(f.simbolo) then Filter(ativos, PorSimbolo(f)) else ativos;
            var a2 := if TextoDefinido(f.criptomoeda) then Filter(a1, PorCripto(f)) else a1;
            var a3 := if NumeroDefinido(f.valorMinimoInvestido) then Filter(a2, PorMinimo(f)) else a2;
            var a4 := if NumeroDefinido(f.valorMaximoInvestido) then Filter(a3, PorMaximo(f)) else a3;
            a4 == Filter(ativos, Ate(f, 4))
  {
    FilterAll(ativos, Ate(f, 0));
    FilterStep(ativos, Ate(f, 0), TextoDefinido(f.simbolo), PorSimbolo(f), Ate(f, 1));
    FilterStep(ativos, Ate(f, 1), TextoDefinido(f.criptomoeda), PorCripto(f), Ate(f, 2));
    FilterStep(ativos, Ate(f, 2), NumeroDefinido(f.valorMinimoInvestido), PorMinimo(f), Ate(f, 3));
    FilterStep(ativos, Ate(f, 3), NumeroDefinido(f.valorMaximoInvestido), PorMaximo(f), Ate(f, 4));
  }

  /** Passing the seven criteria in turn is passing the whole filter. */
  lemma PassaAteSete(f: AtivoFilter, a: Ativo)
    ensures PassaAte(f, 7, a) == PassaFiltro(f, a)
  {
    assert PassaAte(f, 1, a) == (!Aplica(f, 1) || Teste(f, 1, a));
    assert PassaAte(f, 2, a) == (PassaAte(f, 1, a) && (!Aplica(f, 2) || Teste(f, 2, a)));
    assert PassaAte(f, 3, a) == (PassaAte(f, 2, a) && (!Aplica(f, 3) || Teste(f, 3, a)));
    assert PassaAte(f, 4, a) == (PassaAte(f, 3, a) && (!Aplica(f, 4) || Teste(f, 4, a)));
    assert PassaAte(f, 5, a) == (PassaAte(f, 4, a) && (!Aplica(f, 5) || Teste(f, 5, a)));
    assert PassaAte(f, 6, a) == (PassaAte(f, 5, a) && (!Aplica(f, 6) || Teste(f, 6, a)));
  }

  /** The chain of filters is one filter by the conjunction. */
  lemma GetAtivosIsConjunction(ativos: seq<Ativo>, f: AtivoFilter)
    ensures GetAtivos(ativos, Some(f)) == Filter(ativos, (a: Ativo) => PassaFiltro(f, a))
  {
    GetAtivosFirstSteps(ativos, f);
    FilterStep(ativos, Ate(f, 4), f.apenasComLucro == Some(true), ComLucro, Ate(f, 5));
    FilterStep(ativos, Ate(f, 5), f.apenasComPrejuizo == Some(true), ComPrejuizo, Ate(f, 6));
    FilterStep(ativos, Ate(f, 6), f.ativo.Some?, PorEstado(f), Ate(f, 7));
    forall a: Ativo
      ensures PassaAte(f, 7, a) == PassaFiltro(f, a)
    {
      PassaAteSete(f, a);
    }
    FilterExt(ativos, Ate(f, 7), (a: Ativo) => PassaFiltro(f, a));
  }

  /** Without a filter the list comes back unchanged; with one, the result is
      an order-preserving subsequence holding exactly the assets that pass
      every criterion the filter carries. */
  lemma GetAtivosSpec(ativos: seq<Ativo>, filter: Option<AtivoFilter>)
    ensures filter.None? ==> GetAtivos(ativos, filter) == ativos
    ensures IsSubseq(GetAtivos(ativos, filter), ativos)
    ensures filter.Some? ==>
              forall a :: a in GetAtivos(ativos, filter) <==> a in ativos && PassaFiltro(filter.value, a)
  {
    if filter.None? {
      FilterAll(ativos, (a: Ativo) => true);
      FilterIsSubseq(ativos, (a: Ativo) => true);
    } else {
      var p := (a: Ativo) => PassaFiltro(filter.value, a);
      GetAtivosIsConjunction(ativos, filter.value);
      FilterIsSubseq(ativos, p);
      forall a
        ensures a in Filter(ativos, p) <==> a in ativos && p(a)
      {
        FilterMember(ativos, p, a);
      }
    }
  }

  /** A filter whose every key is absent, empty, zero or false, except
      `ativo`, returns the list unchanged. */
  lemma GetAtivosVacuousFilter(ativos: seq<Ativo>, f: AtivoFilter)
    requires !TextoDefinido(f.simbolo) && !TextoDefinido(f.criptomoeda)
    requires !NumeroDefinido(f.valorMinimoInvestido) && !NumeroDefinido(f.valorMaximoInvestido)
    requires f.apenasComLucro != Some(true) && f.apenasComPrejuizo != Some(true) && f.ativo.None?
    ensures GetAtivos(ativos, Some(f)) == ativos
  {
    GetAtivosIsConjunction(ativos, f);
    FilterAll(ativos, (a: Ativo) => PassaFiltro(f, a));
  }

  // ---------------------------------------------------------------- summary

  datatype Destaque = Destaque(simbolo: string, percentualLucro: real)

  datatype PortfolioSummary = PortfolioSummary(
    valorTotalInvestido: real,
    valorTotalAtual: real,
    lucroTotalAbsoluto: real,
    lucroTotalPercentual: real,
    quantidadeAtivos: nat,
    melhorAtivo: Option<Destaque>,
    piorAtivo: Option<Destaque>)

  predicate EhAtivo(a: Ativo)
  {
    a.ativo
  }

  function AtivosAtivos(ativos: seq<Ativo>): seq<Ativo>
  {
    Filter(ativos, EhAtivo)
  }

  function InvestidoSeAtivo(a: Ativo): real
  {
    if a.ativo then a.valorInvestido else 0.0
  }

  function AtualSeAtivo(a: Ativo): real
  {
    if a.ativo then Atual(a) else 0.0
  }

  /** `getPortfolioSummary` over `ativos`. */
  function GetPortfolioSummary(ativos: seq<Ativo>): PortfolioSummary
  {
    var ativosAtivos := AtivosAtivos(ativos);
    var investido := SumBy(ativosAtivos, Investido);
    var atual := SumBy(ativosAtivos, Atual);
    var lucro := atual - investido;
    var percentual := if investido > 0.0 then (lucro / investido) * 100.0 else 0.0;
    var ordenados := SortDesc(ativosAtivos, Pct);
    PortfolioSummary(
      investido, atual, lucro, percentual, |ativosAtivos|,
      if |ordenados| > 0 then Some(Destaque(ordenados[0].simbolo, Pct(ordenados[0]))) else None,
      if |ordenados| > 0 then Some(Destaque(ordenados[|ordenados| - 1].simbolo, Pct(ordenados[|ordenados| - 1]))) else None)
  }

  /** The totals only see active assets: inactive ones count as zero. */
  lemma SummaryTotals(ativos: seq<Ativo>)
    ensures GetPortfolioSummary(ativos).valorTotalInvestido == SumBy(ativos, InvestidoSeAtivo)
    ensures GetPortfolioSummary(ativos).valorTotalAtual == SumBy(ativos, AtualSeAtivo)
    ensures GetPortfolioSummary(ativos).quantidadeAtivos == |AtivosAtivos(ativos)|
  {
    var s := GetPortfolioSummary(ativos);
    assert s.valorTotalInvestido == SumBy(AtivosAtivos(ativos), Investido);
    assert s.valorTotalAtual == SumBy(AtivosAtivos(ativos), Atual);
    SumFilter(ativos, EhAtivo, Investido, InvestidoSeAtivo);
    SumFilter(ativos, EhAtivo, Atual, AtualSeAtivo);
  }

  /** The profit is current minus invested; its percentage is 0 without a
      positive investment and otherwise the profit per 100 invested. */
  lemma SummaryProfit(ativos: seq<Ativo>)
    ensures var s := GetPortfolioSummary(ativos);
            && s.lucroTotalAbsoluto == s.valorTotalAtual - s.valorTotalInvestido
            && (s.valorTotalInvestido <= 0.0 ==> s.lucroTotalPercentual == 0.0)
            && (s.valorTotalInvestido > 0.0 ==>
                  s.lucroTotalPercentual * s.valorTotalInvestido == s.lucroTotalAbsoluto * 100.0)
  {
    var s := GetPortfolioSummary(ativos);
    var investido := SumBy(AtivosAtivos(ativos), Investido);
    var lucro := SumBy(AtivosAtivos(ativos), Atual) - investido;
    assert s.valorTotalInvestido == investido && s.lucroTotalAbsoluto == lucro;
    if investido > 0.0 {
      assert s.lucroTotalPercentual == (lucro / investido) * 100.0;
      PorCento(lucro, investido);
    }
  }

  lemma PorCento(parte: real, todo: real)
    requires todo > 0.0
    ensures ((parte / todo) * 100.0) * todo == parte * 100.0
  {
    assert (parte / todo) * todo == parte;
  }

  /** The best and the worst asset exist exactly when some asset is active;
      each is an active asset, the best with a profit at least every active
      asset's, the worst at most every active asset's. */
  lemma SummaryBestWorst(ativos: seq<Ativo>)
    ensures var s := GetPortfolioSummary(ativos);
            && (s.melhorAtivo.None? <==> forall a :: a in ativos ==> !a.ativo)
            && (s.piorAtivo.None? <==> forall a :: a in ativos ==> !a.ativo)
    ensures var s := GetPortfolioSummary(ativos);
            s.melhorAtivo.Some? ==>
              && (exists a :: a in ativos && a.ativo && a.simbolo == s.melhorAtivo.value.simbolo
                              && Pct(a) == s.melhorAtivo.value.percentualLucro)
              && (forall a :: a in ativos && a.ativo ==> Pct(a) <= s.melhorAtivo.value.percentualLucro)
    ensures var s := GetPortfolioSummary(ativos);
            s.piorAtivo.Some? ==>
              && (exists a :: a in ativos && a.ativo && a.simbolo == s.piorAtivo.value.simbolo
                              && Pct(a) == s.piorAtivo.value.percentualLucro)
              && (forall a :: a in ativos && a.ativo ==> Pct(a) >= s.piorAtivo.value.percentualLucro)
  {
    var at := AtivosAtivos(ativos);
    var ord := SortDesc(at, Pct);
    SortDescProps(at, Pct);
    forall a
      ensures a in at <==> a in ativos && a.ativo
    {
      FilterMember(ativos, EhAtivo, a);
    }
    assert forall a :: a in ord <==> a in at by {
      forall a
        ensures a in ord <==> a in at
      {
        assert a in ord <==> a in multiset(ord);
        assert a in at <==> a in multiset(at);
      }
    }
    if |ord| > 0 {
      assert ord[0] in ord && ord[|ord| - 1] in ord;
      forall a | a in ativos && a.ativo
        ensures Pct(ord[|ord| - 1]) <= Pct(a) <= Pct(ord[0])
      {
        assert a in ord;
        var i :| 0 <= i < |ord| && ord[i] == a;
      }
    } else {
      assert at == [];
    }
  }

  // ---------------------------------------------------------------- distribution

  datatype DistribuicaoPortfolio = DistribuicaoPortfolio(
    simbolo: string,
    criptomoeda: string,
    percentualPortfolio: real,
    valorInvestido: real,
    valorAtual: real)

  /** The share of one asset in a portfolio worth `total`, in percent. */
  function Participacao(a: Ativo, total: real): real
  {
    if total > 0.0 then (Atual(a) / total) * 100.0 else 0.0
  }

  function Entrada(a: Ativo, total: real): DistribuicaoPortfolio
  {
    DistribuicaoPortfolio(a.simbolo, a.criptomoeda, Participacao(a, total), a.valorInvestido, Atual(a))
  }

  /** `ativos.map(...)` of the distribution. */
  function Entradas(ativos: seq<Ativo>, total: real): (r: seq<DistribuicaoPortfolio>)
    ensures |r| == |ativos|
    ensures forall i :: 0 <= i < |ativos| ==> r[i] == Entrada(ativos[i], total)
  {
    if ativos == [] then [] else [Entrada(ativos[0], total)] + Entradas(ativos[1..], total)
  }

  function Percentual(d: DistribuicaoPortfolio): real
  {
    d.percentualPortfolio
  }

  function ValorTotalPortfolio(ativos: seq<Ativo>): real
  {
    SumBy(AtivosAtivos(ativos), Atual)
  }

  /** `getDistribuicaoPortfolio` over `ativos`. */
  function GetDistribuicaoPortfolio(ativos: seq<Ativo>): seq<DistribuicaoPortfolio>
  {
    var ativosAtivos := AtivosAtivos(ativos);
    SortDesc(Entradas(ativosAtivos, ValorTotalPortfolio(ativos)), Percentual)
  }

  /** One entry per active asset, in descending order of share; every share
      is 0 when the portfolio is worth nothing. */
  lemma DistribuicaoSpec(ativos: seq<Ativo>)
    ensures var d := GetDistribuicaoPortfolio(ativos);
            && |d| == |AtivosAtivos(ativos)|
            && multiset(d) == multiset(Entradas(AtivosAtivos(ativos), ValorTotalPortfolio(ativos)))
            && SortedDesc(d, Percentual)
    ensures ValorTotalPortfolio(ativos) <= 0.0 ==>
              forall i :: 0 <= i < |GetDistribuicaoPortfolio(ativos)| ==>
                GetDistribuicaoPortfolio(ativos)[i].percentualPortfolio == 0.0
  {
    var es := Entradas(AtivosAtivos(ativos), ValorTotalPortfolio(ativos));
    var d := GetDistribuicaoPortfolio(ativos);
    SortDescProps(es, Percentual);
    if ValorTotalPortfolio(ativos) <= 0.0 {
      forall i | 0 <= i < |d|
        ensures d[i].percentualPortfolio == 0.0
      {
        assert d[i] in multiset(es);
        var j :| 0 <= j < |es| && es[j] == d[i];
      }
    }
  }

  /** Summing the shares of a list against a positive total gives its
      value as a percentage of that total. */
  lemma {:induction false} SumParticipacao(ativos: seq<Ativo>, total: real)
    requires total > 0.0
    ensures SumBy(Entradas(ativos, total), Percentual) == (SumBy(ativos, Atual) / total) * 100.0
  {
    if ativos != [] {
      SumParticipacao(ativos[1..], total);
      var es := Entradas(ativos, total);
      assert es[1..] == Entradas(ativos[1..], total);
      var x := Atual(ativos[0]);
      var rest := SumBy(ativos[1..], Atual);
      assert (x / total) * 100.0 + (rest / total) * 100.0 == ((x + rest) / total) * 100.0;
    }
  }

  /** When the portfolio is worth something, the shares add up to 100%. */
  lemma DistribuicaoTotal(ativos: seq<Ativo>)
    requires ValorTotalPortfolio(ativos) > 0.0
    ensures SumBy(GetDistribuicaoPortfolio(ativos), Percentual) == 100.0
  {
    var total := ValorTotalPortfolio(ativos);
    var es := Entradas(AtivosAtivos(ativos), total);
    SumSortDesc(es, Percentual, Percentual);
    SumParticipacao(AtivosAtivos(ativos), total);
    assert total / total == 1.0;
    assert GetDistribuicaoPortfolio(ativos) == SortDesc(es, Percentual);
  }
}

=== FILE: ativos_component.dfy ===
/** `AtivosComponent` (src/app/components/ativos/ativos.ts): the holdings
    table with its text, type and broker filters and the totals over the
    visible rows. Amounts are exact reals. */
module AtivosTela {
  import opened Wrappers
  import opened Sequences
  import opened Texto

  /** A holding as the screen lists it. */
  datatype AtivoCarteira = AtivoCarteira(
    id: string,
    simbolo: string,
    nome: string,
    quantidade: real,
    precoMedio: real,
    investido: real,
    precoAtual: real,
    valorAtual: real,
    plValor: real,
    plPct: real,
    corretora: Option<string>,
    tipo: Option<string>)

  /** The text test, with the search already trimmed and lowered: an empty
      search passes everything. */
  predicate PassaBusca(busca: string, a: AtivoCarteira)
  {
    busca == "" || Contains(ToLower(a.simbolo), busca) || Contains(ToLower(a.nome), busca)
  }

  /** An empty type or broker filter passes everything; a non-empty one asks
      for that exact value. */
  predicate PassaOpcional(filtro: string, valor: Option<string>)
  {
    filtro == "" || valor == Some(filtro)
  }

  predicate PassaFiltros(busca: string, filtroTipo: string, filtroCorretora: string, a: AtivoCarteira)
  {
    PassaBusca(ToLower(Trim(busca)), a) && PassaOpcional(filtroTipo, a.tipo) && PassaOpcional(filtroCorretora, a.corretora)
  }

  /** The row filter of `aplicarFiltro`. */
  function FiltrarAtivos(ativos: seq<AtivoCarteira>, busca: string, filtroTipo: string, filtroCorretora: string): seq<AtivoCarteira>
  {
    Filter(ativos, (a: AtivoCarteira) => PassaFiltros(busca, filtroTipo, filtroCorretora, a))
  }

  /** The visible rows are an order-preserving subsequence of the holdings,
      exactly those passing the three filters; with a blank search and empty
      filters every holding is visible. */
  lemma FiltrarAtivosSpec(ativos: seq<AtivoCarteira>, busca: string, filtroTipo: string, filtroCorretora: string)
    ensures IsSubseq(FiltrarAtivos(ativos, busca, filtroTipo, filtroCorretora), ativos)
    ensures forall a :: a in FiltrarAtivos(ativos, busca, filtroTipo, filtroCorretora) <==>
                        a in ativos && PassaFiltros(busca, filtroTipo, filtroCorretora, a)
    ensures forall a :: multiset(FiltrarAtivos(ativos, busca, filtroTipo, filtroCorretora))[a] ==
                        if PassaFiltros(busca, filtroTipo, filtroCorretora, a) then multiset(ativos)[a] else 0
    ensures (forall i :: 0 <= i < |busca| ==> IsSpace(busca[i])) && filtroTipo == "" && filtroCorretora == "" ==>
              FiltrarAtivos(ativos, busca, filtroTipo, filtroCorretora) == ativos
  {
    var p := (a: AtivoCarteira) => PassaFiltros(busca, filtroTipo, filtroCorretora, a);
    FilterIsSubseq(ativos, p);
    forall a
      ensures a in Filter(ativos, p) <==> a in ativos && p(a)
      ensures multiset(Filter(ativos, p))[a] == if p(a) then multiset(ativos)[a] else 0
    {
      FilterMember(ativos, p, a);
      FilterCount(ativos, p, a);
    }
    TrimEmptyIff(busca);
    if Trim(busca) == "" && filtroTipo == "" && filtroCorretora == "" {
      assert ToLower(Trim(busca)) == "";
      FilterAll(ativos, p);
    }
  }

  function Investido(a: AtivoCarteira): real
  {
    a.investido
  }

  function ValorAtual(a: AtivoCarteira): real
  {
    a.valorAtual
  }

  /** The two example holdings the screen starts with. */
  function ExemplosAtivos(): seq<AtivoCarteira>
  {
    [ AtivoCarteira("BTC", "BTC", "Bitcoin", 0.3, 180000.0, 54000.0, 220000.0, 66000.0, 12000.0, 22.22,
                    Some("Binance"), Some("Cripto")),
      AtivoCarteira("ADA", "ADA", "Cardano", 1000.0, 2.2, 2200.0, 1.9, 1900.0, -300.0, -13.64,
                    Some("Binance"), Some("Cripto")) ]
  }

  class AtivosComponent {
    var busca: string
    var filtroTipo: string
    var filtroCorretora: string
    var ativos: seq<AtivoCarteira>
    var ativosFiltrados: seq<AtivoCarteira>
    var totalInvestido: real
    var totalAtual: real
    var totalPL: real

    /** What `aplicarFiltro` establishes: the visible rows follow the current
        filters and the totals are those of the visible rows. */
    ghost predicate Consistente()
      reads this
    {
      && ativosFiltrados == FiltrarAtivos(ativos, busca, filtroTipo, filtroCorretora)
      && totalInvestido == SumBy(ativosFiltrados, Investido)
      && totalAtual == SumBy(ativosFiltrados, ValorAtual)
      && totalPL == totalAtual - totalInvestido
    }

    /** The screen starts with the example holdings and no filter, and runs
        `aplicarFiltro` at once. */
    constructor ()
      ensures Consistente()
      ensures ativos == ExemplosAtivos() && busca == "" && filtroTipo == "" && filtroCorretora == ""
    {
      busca, filtroTipo, filtroCorretora := "", "", "";
      ativos := ExemplosAtivos();
      ativosFiltrados := [];
      totalInvestido, totalAtual, totalPL := 0.0, 0.0, 0.0;
      new;
      AplicarFiltro();
    }

    /** The form's two-way bindings write the filter fields; the template runs
        `aplicarFiltro` afterwards. */
    method AlterarFiltros(busca: string, filtroTipo: string, filtroCorretora: string)
      modifies this
      ensures this.busca == busca && this.filtroTipo == filtroTipo && this.filtroCorretora == filtroCorretora
      ensures unchanged(this`ativos, this`ativosFiltrados, this`totalInvestido, this`totalAtual, this`totalPL)
    {
      this.busca := busca;
      this.filtroTipo := filtroTipo;
      this.filtroCorretora := filtroCorretora;
    }

    /** `aplicarFiltro`: recomputes the visible rows and their totals, leaving
        the holdings and the filters alone. */
    method AplicarFiltro()
      modifies this
      ensures Consistente()
      ensures unchanged(this`busca, this`filtroTipo, this`filtroCorretora, this`ativos)
    {
      ativosFiltrados := FiltrarAtivos(ativos, busca, filtroTipo, filtroCorretora);
      totalInvestido := SumBy(ativosFiltrados, Investido);
      totalAtual := SumBy(ativosFiltrados, ValorAtual);
      totalPL := totalAtual - totalInvestido;
    }

    /** `totalPLPct`: 0 without a positive investment, otherwise the profit
        per 100 invested. */
    function TotalPLPct(): (r: real)
      reads this
      ensures totalInvestido <= 0.0 ==> r == 0.0
      ensures totalInvestido > 0.0 ==> r * totalInvestido == totalPL * 100.0
    {
      if totalInvestido > 0.0 then
        var pct := (totalPL / totalInvestido) * 100.0;
        assert pct * totalInvestido == totalPL * 100.0 by {
          assert (totalPL / totalInvestido) * totalInvestido == totalPL;
        }
        pct
      else 0.0
    }
  }

  /** Right after construction every example holding is visible and the
      totals are those of all of them. */
  lemma ConstrucaoMostraTudo(c: AtivosComponent)
    requires c.Consistente()
    requires c.ativos == ExemplosAtivos() && c.busca == "" && c.filtroTipo == "" && c.filtroCorretora == ""
    ensures c.ativosFiltrados == ExemplosAtivos()
    ensures c.totalInvestido == 56200.0 && c.totalAtual == 67900.0 && c.totalPL == 11700.0
  {
    FiltrarAtivosSpec(c.ativos, c.busca, c.filtroTipo, c.filtroCorretora);
    var e := ExemplosAtivos();
    assert e[1..][1..] == [];
  }
}

=== FILE: carteira_service.dfy ===
/** `CarteiraService` (src/app/services/carteira.service.ts): the list of
    wallets held in its subject, the in-place update of one wallet, and the
    lookups over its fixed development data. */
module CarteiraServico {
  import opened Wrappers
  import opened Sequences
  import opened Modelos

  /** `UpdateCarteiraRequest`: `None` is a key the request does not carry. */
  datatype UpdateCarteiraRequest = UpdateCarteiraRequest(nome: Option<string>, ativa: Option<bool>)

  /** The error `updateCarteira` throws. */
  datatype ErroCarteira = CarteiraNaoEncontrada

  /** Whether a wallet has the identifier `id`. */
  predicate TemId(id: int, c: Carteira)
  {
    c.idCarteira == id
  }

  /** `{ ...carteira, ...request }`: every key the request carries overrides the
      wallet's value; every other field is kept. */
  function Mesclar(c: Carteira, request: UpdateCarteiraRequest): (r: Carteira)
    ensures r.idCarteira == c.idCarteira && r.excluido == c.excluido
    ensures r.corretoraId == c.corretoraId && r.corretora == c.corretora
    ensures r.nome == (if request.nome.Some? then request.nome.value else c.nome)
    ensures r.ativa == (if request.ativa.Some? then request.ativa else c.ativa)
  {
    var c1 := if request.nome.Some? then c.(nome := request.nome.value) else c;
    if request.ativa.Some? then c1.(ativa := request.ativa) else c1
  }

  /** Spreading the same request twice is spreading it once. */
  lemma MesclarIdempotent(c: Carteira, request: UpdateCarteiraRequest)
    ensures Mesclar(Mesclar(c, request), request) == Mesclar(c, request)
  {
  }

  class CarteiraService {
    /** The current value of `carteirasSubject`. */
    var carteiras: seq<Carteira>

    constructor ()
      ensures carteiras == []
    {
      carteiras := [];
    }

    /** `loadCarteiras`: the wallets of a successful response replace the list;
        a failed request leaves it as it was. */
    method LoadCarteiras(resposta: Result<seq<Carteira>, ErroHttp>)
      modifies this
      ensures resposta.Ok? ==> carteiras == resposta.value
      ensures resposta.Err? ==> carteiras == old(carteiras)
    {
      if resposta.Ok? {
        carteiras := resposta.value;
      }
    }

    /** `updateCarteira`: merges the request into the first wallet with
        identifier `id`, in place, and returns the merged wallet; with no such
        wallet it fails and the list is untouched. */
    method UpdateCarteira(id: int, request: UpdateCarteiraRequest) returns (r: Result<Carteira, ErroCarteira>)
      modifies this
      ensures |carteiras| == |old(carteiras)|
      ensures old(FindIndex(carteiras, c => TemId(id, c))).None? ==>
                r == Err(CarteiraNaoEncontrada) && carteiras == old(carteiras)
      ensures old(FindIndex(carteiras, c => TemId(id, c))).Some? ==>
                var i := old(FindIndex(carteiras, c => TemId(id, c))).value;
                && carteiras == old(carteiras)[i := Mesclar(old(carteiras)[i], request)]
                && r == Ok(carteiras[i])
                && (forall j :: 0 <= j < i ==> carteiras[j].idCarteira != id)
    {
      var index := FindIndex(carteiras, c => TemId(id, c));
      if index.Some? {
        carteiras := carteiras[index.value := Mesclar(carteiras[index.value], request)];
        return Ok(carteiras[index.value]);
      }
      return Err(CarteiraNaoEncontrada);
    }
  }

  /** `getMockCarteiras`: the wallets used for development. */
  function MockCarteiras(): seq<Carteira>
  {
    [ Carteira(43, "Jaime Binance", false, None, Some(CorretoraRef(1, "Binance")), None),
      Carteira(44, "Jaime Mercado Bitcoin", true, None, Some(CorretoraRef(2, "Mercado Bitcoin")), None) ]
  }

  /** `getMockCorretoras`: the brokers used for development. */
  function MockCorretoras(): seq<Corretora>
  {
    [ Corretora(1, "XP Investimentos", Some("XP"), true),
      Corretora(2, "Rico", Some("RICO"), true),
      Corretora(3, "Clear", Some("CLEAR"), true) ]
  }

  /** `getCarteiraById`: the first development wallet with that identifier,
      or nothing (the Observable then emits `undefined`). */
  function GetCarteiraById(id: int): (r: Option<Carteira>)
    ensures r.Some? ==> r.value in MockCarteiras() && r.value.idCarteira == id
    ensures r.None? ==> forall c :: c in MockCarteiras() ==> c.idCarteira != id
  {
    Find(MockCarteiras(), c => TemId(id, c))
  }

  /** Exactly the identifiers 43 and 44 are found among the development wallets. */
  lemma GetCarteiraByIdFound(id: int)
    ensures GetCarteiraById(id).Some? <==> id == 43 || id == 44
    ensures id == 43 ==> GetCarteiraById(id) == Some(MockCarteiras()[0])
  {
    var ms := MockCarteiras();
    if id == 43 {
      assert TemId(id, ms[0]);
    } else if id == 44 {
      assert !TemId(id, ms[0]) && TemId(id, ms[1]);
    }
  }
}

=== FILE: confirmation_modal.dfy ===
/** `ConfirmationModalComponent`
    (src/app/components/confirmation-modal/confirmation-modal.component.ts):
    a dialog whose buttons and backdrop emit `confirmed` or `cancelled` unless
    it is busy. The two outputs are one log of emitted events. */
module ConfirmationModal {

  datatype EventoModal = Confirmed | Cancelled

  class ConfirmationModalComponent {
    var isVisible: bool
    var title: string
    var message: string
    var warningMessage: string
    var confirmButtonText: string
    var cancelButtonText: string
    var confirmButtonClass: string
    var isLoading: bool
    /** Every event emitted so far, oldest first. */
    var eventos: seq<EventoModal>

    /** The dialog with its default inputs; the parent's bindings then set
        `isVisible` and `isLoading`. */
    constructor (isVisible: bool, isLoading: bool)
      ensures this.isVisible == isVisible && this.isLoading == isLoading
      ensures title == "Confirmação" && message == "Tem certeza que deseja continuar?" && warningMessage == ""
      ensures confirmButtonText == "Confirmar" && cancelButtonText == "Cancelar" && confirmButtonClass == "btn-danger"
      ensures eventos == []
    {
      this.isVisible := isVisible;
      this.isLoading := isLoading;
      title := "Confirmação";
      message := "Tem certeza que deseja continuar?";
      warningMessage := "";
      confirmButtonText := "Confirmar";
      cancelButtonText := "Cancelar";
      confirmButtonClass := "btn-danger";
      eventos := [];
    }

    /** The parent rebinding `isLoading` while its request runs. */
    method SetLoading(isLoading: bool)
      modifies this
      ensures this.isLoading == isLoading
      ensures unchanged(this`isVisible, this`title, this`message, this`warningMessage, this`confirmButtonText,
                        this`cancelButtonText, this`confirmButtonClass, this`eventos)
    {
      this.isLoading := isLoading;
    }

    /** `onConfirm`: one `confirmed` exactly when not loading; no input changes. */
    method OnConfirm()
      modifies this
      ensures eventos == if old(isLoading) then old(eventos) else old(eventos) + [Confirmed]
      ensures unchanged(this`isVisible, this`title, this`message, this`warningMessage, this`confirmButtonText,
                        this`cancelButtonText, this`confirmButtonClass, this`isLoading)
    {
      if !isLoading {
        eventos := eventos + [Confirmed];
      }
    }

    /** `onCancel`: one `cancelled` exactly when not loading; no input changes. */
    method OnCancel()
      modifies this
      ensures eventos == if old(isLoading) then old(eventos) else old(eventos) + [Cancelled]
      ensures unchanged(this`isVisible, this`title, this`message, this`warningMessage, this`confirmButtonText,
                        this`cancelButtonText, this`confirmButtonClass, this`isLoading)
    {
      if !isLoading {
        eventos := eventos + [Cancelled];
      }
    }

    /** `onBackdropClick`: a click on the backdrop itself (`alvoEhAtual`: the
        event's target is its current target) cancels when not loading; a click
        that bubbled up from the dialog does nothing. */
    method OnBackdropClick(alvoEhAtual: bool)
      modifies this
      ensures eventos == if alvoEhAtual && !old(isLoading) then old(eventos) + [Cancelled] else old(eventos)
      ensures unchanged(this`isVisible, this`title, this`message, this`warningMessage, this`confirmButtonText,
                        this`cancelButtonText, this`confirmButtonClass, this`isLoading)
    {
      if alvoEhAtual && !isLoading {
        OnCancel();
      }
    }
  }
}

=== FILE: file_upload.dfy ===
/** `FileUploadComponent` (src/app/components/file-upload/file-upload.component.ts):
    picking or dropping a statement file, its validation, the simulated upload
    that advances 10% per timer tick, and the events the panel emits. The
    interval and the final delay are the methods `Tick` and `ConcluirUpload`,
    called in the order the timers fire; `Date.now()` is the parameter `agora`. */
module FileUpload {
  import opened Wrappers
  import opened Texto
  import opened Modelos
  import ArquivoServico

  /** What the panel emits: `uploadComplete` with the new file, or `cancelled`. */
  datatype Evento = UploadComplete(arquivo: Arquivo) | Cancelled

  /** JavaScript truthiness of the `carteiraId` input (`null` and 0 are falsy). */
  predicate CarteiraDefinida(carteiraId: Option<int>)
  {
    carteiraId.Some? && carteiraId.value != 0
  }

  /** The record the simulated upload builds when it reaches 100%. */
  function NovoArquivo(file: File, carteiraId: int, observacoes: string, agora: int): (a: Arquivo)
    ensures a.id == Some(agora) && a.dataUpload == Some(agora)
    ensures a.nome == file.name && a.tamanho == file.size && a.carteiraId == carteiraId
    ensures a.status == PENDENTE && a.totalOperacoes.None?
    ensures a.observacoes.None? <==> Trim(observacoes) == ""
    ensures a.observacoes.Some? ==> a.observacoes.value == Trim(observacoes)
  {
    Arquivo(Some(agora), file.name, carteiraId, Some(agora), file.size, PENDENTE, None,
            if Trim(observacoes) == "" then None else Some(Trim(observacoes)))
  }

  class FileUploadComponent {
    var carteiraId: Option<int>
    var isVisible: bool
    var selectedFile: Option<File>
    var observacoes: string
    var isUploading: bool
    var uploadProgress: int
    var dragOver: bool
    var validationErrors: seq<string>
    /** Whether the upload's interval timer is still running. */
    var intervaloAtivo: bool
    /** The file built at 100%, waiting for the final 500 ms delay. */
    var conclusaoPendente: Option<Arquivo>
    /** Everything emitted so far, oldest first. */
    var emitidos: seq<Evento>

    /** What every handler keeps: a selected file passed validation, the
        progress is a multiple of 10 between 0 and 100, a running interval
        belongs to an upload below 100%, a pending completion to an upload whose
        interval stopped, and an upload only runs for a defined wallet. */
    ghost predicate Valid()
      reads this
    {
      && (selectedFile.Some? ==> validationErrors == [] && ArquivoServico.ErrosCSV(selectedFile.value) == [])
      && 0 <= uploadProgress <= 100 && uploadProgress % 10 == 0
      && (intervaloAtivo ==> isUploading && uploadProgress < 100)
      && (conclusaoPendente.Some? ==> isUploading && !intervaloAtivo)
      && (isUploading ==> CarteiraDefinida(carteiraId))
    }

    /** `canUpload`. */
    predicate CanUpload()
      reads this
    {
      selectedFile.Some? && CarteiraDefinida(carteiraId) && !isUploading && |validationErrors| == 0
    }

    /** The panel as the parent creates it, with its two inputs. */
    constructor (carteiraId: Option<int>, isVisible: bool)
      ensures Valid()
      ensures this.carteiraId == carteiraId && this.isVisible == isVisible
      ensures selectedFile.None? && observacoes == "" && !isUploading && uploadProgress == 0
      ensures !dragOver && validationErrors == [] && !intervaloAtivo && conclusaoPendente.None? && emitidos == []
    {
      this.carteiraId := carteiraId;
      this.isVisible := isVisible;
      selectedFile := None;
      observacoes := "";
      isUploading := false;
      uploadProgress := 0;
      dragOver := false;
      validationErrors := [];
      intervaloAtivo := false;
      conclusaoPendente := None;
      emitidos := [];
    }

    /** The notes field, bound to the form. */
    method SetObservacoes(texto: string)
      requires Valid()
      modifies this
      ensures Valid()
      ensures observacoes == texto
      ensures unchanged(this`carteiraId, this`isVisible, this`selectedFile, this`isUploading, this`uploadProgress,
                        this`dragOver, this`validationErrors, this`intervaloAtivo, this`conclusaoPendente, this`emitidos)
    {
      observacoes := texto;
    }

    /** `handleFileSelection`: a valid file becomes the selection with no
        errors; an invalid one clears the selection and shows its errors. */
    method HandleFileSelection(file: File)
      requires Valid()
      modifies this
      ensures Valid()
      ensures ArquivoServico.ErrosCSV(file) == [] ==> selectedFile == Some(file) && validationErrors == []
      ensures ArquivoServico.ErrosCSV(file) != [] ==>
                selectedFile.None? && validationErrors == ArquivoServico.ErrosCSV(file)
      ensures unchanged(this`carteiraId, this`isVisible, this`observacoes, this`isUploading, this`uploadProgress,
                        this`dragOver, this`intervaloAtivo, this`conclusaoPendente, this`emitidos)
    {
      var validation := ArquivoServico.ValidarArquivoCSV(file);
      if validation.valido {
        selectedFile := Some(file);
        validationErrors := [];
      } else {
        selectedFile := None;
        validationErrors := validation.erros;
      }
    }

    /** `onFileSelected`: the first chosen file, if any, is handled. */
    method OnFileSelected(files: seq<File>)
      requires Valid()
      modifies this
      ensures Valid()
      ensures files == [] ==> unchanged(this)
      ensures files != [] && ArquivoServico.ErrosCSV(files[0]) == [] ==>
                selectedFile == Some(files[0]) && validationErrors == []
      ensures files != [] && ArquivoServico.ErrosCSV(files[0]) != [] ==>
                selectedFile.None? && validationErrors == ArquivoServico.ErrosCSV(files[0])
      ensures unchanged(this`carteiraId, this`isVisible, this`observacoes, this`isUploading, this`uploadProgress,
                        this`dragOver, this`intervaloAtivo, this`conclusaoPendente, this`emitidos)
    {
      if files != [] {
        HandleFileSelection(files[0]);
      }
    }

    /** `onDragOver`. */
    method OnDragOver()
      requires Valid()
      modifies this
      ensures Valid()
      ensures dragOver
      ensures unchanged(this`carteiraId, this`isVisible, this`selectedFile, this`observacoes, this`isUploading,
                        this`uploadProgress, this`validationErrors, this`intervaloAtivo, this`conclusaoPendente, this`emitidos)
    {
      dragOver := true;
    }

    /** `onDragLeave`. */
    method OnDragLeave()
      requires Valid()
      modifies this
      ensures Valid()
      ensures !dragOver
      ensures unchanged(this`carteiraId, this`isVisible, this`selectedFile, this`observacoes, this`isUploading,
                        this`uploadProgress, this`validationErrors, this`intervaloAtivo, this`conclusaoPendente, this`emitidos)
    {
      dragOver := false;
    }

    /** `onDrop`: the highlight goes off and the first dropped file, if any, is
        handled. */
    method OnDrop(files: seq<File>)
      requires Valid()
      modifies this
      ensures Valid()
      ensures !dragOver
      ensures files == [] ==> unchanged(this`selectedFile, this`validationErrors)
      ensures files != [] && ArquivoServico.ErrosCSV(files[0]) == [] ==>
                selectedFile == Some(files[0]) && validationErrors == []
      ensures files != [] && ArquivoServico.ErrosCSV(files[0]) != [] ==>
                selectedFile.None? && validationErrors == ArquivoServico.ErrosCSV(files[0])
      ensures unchanged(this`carteiraId, this`isVisible, this`observacoes, this`isUploading, this`uploadProgress,
                        this`intervaloAtivo, this`conclusaoPendente, this`emitidos)
    {
      dragOver := false;
      if files != [] {
        HandleFileSelection(files[0]);
      }
    }

    /** `removeFile`: selection, errors and progress are cleared, even while an
        upload runs (the upload itself goes on). */
    method RemoveFile()
      requires Valid()
      modifies this
      ensures Valid()
      ensures selectedFile.None? && validationErrors == [] && uploadProgress == 0
      ensures unchanged(this`carteiraId, this`isVisible, this`observacoes, this`isUploading, this`dragOver,
                        this`intervaloAtivo, this`conclusaoPendente, this`emitidos)
    {
      selectedFile := None;
      validationErrors := [];
      uploadProgress := 0;
    }

    /** `uploadFile`: starts the simulated upload from 0% exactly when
        `canUpload` held; otherwise nothing changes. */
    method UploadFile()
      requires Valid()
      modifies this
      ensures Valid()
      ensures old(CanUpload()) ==> isUploading && uploadProgress == 0 && intervaloAtivo
      ensures !old(CanUpload()) ==> unchanged(this)
      ensures unchanged(this`carteiraId, this`isVisible, this`selectedFile, this`observacoes, this`dragOver,
                        this`validationErrors, this`conclusaoPendente, this`emitidos)
    {
      if selectedFile.None? || !CarteiraDefinida(carteiraId) || isUploading {
        return;
      }
      isUploading := true;
      uploadProgress := 0;
      intervaloAtivo := true;
    }

    /** One tick of the upload interval: 10% more. At 100% the interval stops
        and the new file is built from the selected file and the trimmed notes.
        When the file was removed meanwhile, building it throws (`falhou`): no
        completion is scheduled and the panel stays uploading. */
    method Tick(agora: int) returns (falhou: bool)
      requires Valid() && intervaloAtivo
      modifies this
      ensures Valid()
      ensures isUploading && CarteiraDefinida(carteiraId)
      ensures uploadProgress == old(uploadProgress) + 10
      ensures uploadProgress < 100 ==> intervaloAtivo && !falhou && conclusaoPendente == old(conclusaoPendente)
      ensures uploadProgress == 100 ==> !intervaloAtivo
      ensures uploadProgress == 100 && old(selectedFile).Some? ==>
                !falhou && conclusaoPendente == Some(NovoArquivo(old(selectedFile).value, carteiraId.value, observacoes, agora))
      ensures uploadProgress == 100 && old(selectedFile).None? ==>
                falhou && conclusaoPendente.None? && isUploading
      ensures unchanged(this`carteiraId, this`isVisible, this`selectedFile, this`observacoes, this`isUploading,
                        this`dragOver, this`validationErrors, this`emitidos)
    {
      falhou := false;
      uploadProgress := uploadProgress + 10;
      if uploadProgress >= 100 {
        intervaloAtivo := false;
        if selectedFile.None? {
          falhou := true;
          return;
        }
        conclusaoPendente := Some(NovoArquivo(selectedFile.value, carteiraId.value, observacoes, agora));
      }
    }

    /** The 500 ms delay after 100%: the new file is emitted and the form reset. */
    method ConcluirUpload()
      requires Valid() && conclusaoPendente.Some?
      modifies this
      ensures Valid()
      ensures emitidos == old(emitidos) + [UploadComplete(old(conclusaoPendente).value)]
      ensures selectedFile.None? && observacoes == "" && !isUploading && uploadProgress == 0
      ensures validationErrors == [] && !dragOver && conclusaoPendente.None?
      ensures unchanged(this`carteiraId, this`isVisible, this`intervaloAtivo)
    {
      emitidos := emitidos + [UploadComplete(conclusaoPendente.value)];
      conclusaoPendente := None;
      ResetForm();
    }

    /** `onCancelClick`: refused while uploading; otherwise the form is reset
        and `cancelled` emitted. */
    method OnCancelClick()
      requires Valid()
      modifies this
      ensures Valid()
      ensures old(isUploading) ==> unchanged(this)
      ensures !old(isUploading) ==>
                && emitidos == old(emitidos) + [Cancelled]
                && selectedFile.None? && observacoes == "" && uploadProgress == 0
                && validationErrors == [] && !dragOver
                && unchanged(this`carteiraId, this`isVisible, this`isUploading, this`intervaloAtivo, this`conclusaoPendente)
    {
      if isUploading {
        return;
      }
      ResetForm();
      emitidos := emitidos + [Cancelled];
    }

    /** `resetForm`. */
    method ResetForm()
      requires Valid() && !intervaloAtivo && conclusaoPendente.None?
      modifies this
      ensures Valid()
      ensures selectedFile.None? && observacoes == "" && !isUploading && uploadProgress == 0
      ensures validationErrors == [] && !dragOver
      ensures unchanged(this`carteiraId, this`isVisible, this`intervaloAtivo, this`conclusaoPendente, this`emitidos)
    {
      selectedFile := None;
      observacoes := "";
      isUploading := false;
      uploadProgress := 0;
      validationErrors := [];
      dragOver := false;
    }
  }
}

=== FILE: importacao.dfy ===
/** `ImportacaoComponent` (src/app/components/importacao/importacao.ts): the
    import screen's wallet list, selection, wallet form and delete modal, its
    alert, and the pure helpers it renders with. Server answers and browser
    dialogs are parameters. */
module Importacao {
  import opened Wrappers
  import opened Sequences
  import opened Texto
  import opened Modelos
  import ArquivoServico
  import CarteiraServico

  // ---------------------------------------------------------------- helpers

  /** Whether the wallet carries a nested broker with a non-empty name. */
  predicate TemCorretoraAninhada(c: Carteira)
  {
    c.corretora.Some? && c.corretora.value.nome != ""
  }

  predicate CorretoraDe(c: Carteira, k: Corretora)
  {
    c.corretoraId == Some(k.idCorretora)
  }

  /** `getCorretoraName`: the first word of the nested broker's name; failing
      that, the first word of the first listed broker with the wallet's
      `corretoraId`; failing that, 'N/A'. */
  function GetCorretoraName(carteira: Carteira, corretoras: seq<Corretora>): (r: string)
    ensures ' ' !in r
    ensures TemCorretoraAninhada(carteira) ==> r == FirstWord(carteira.corretora.value.nome)
    ensures (!TemCorretoraAninhada(carteira) && forall k :: k in corretoras ==> !CorretoraDe(carteira, k))
              ==> r == "N/A"
    ensures (!TemCorretoraAninhada(carteira) && exists k :: k in corretoras && CorretoraDe(carteira, k))
              ==> exists i :: 0 <= i < |corretoras| && CorretoraDe(carteira, corretoras[i])
                              && r == FirstWord(corretoras[i].nome)
                              && forall j :: 0 <= j < i ==> !CorretoraDe(carteira, corretoras[j])
  {
    if TemCorretoraAninhada(carteira) then FirstWord(carteira.corretora.value.nome)
    else match Find(corretoras, (k: Corretora) => CorretoraDe(carteira, k))
      case Some(k) => FirstWord(k.nome)
      case None => "N/A"
  }

  /** The test of `carteirasFiltradas` with the lowered search term. */
  predicate CombinaBusca(termo: string, corretoras: seq<Corretora>, c: Carteira)
  {
    Contains(ToLower(c.nome), termo) || Contains(ToLower(GetCorretoraName(c, corretoras)), termo)
  }

  /** `carteirasFiltradas`: every wallet for a blank search, otherwise those
      whose lowered name or broker short name contains the lowered (untrimmed)
      term. */
  function CarteirasFiltradas(carteiras: seq<Carteira>, corretoras: seq<Corretora>, searchTerm: string): seq<Carteira>
  {
    if Trim(searchTerm) == "" then carteiras
    else Filter(carteiras, (c: Carteira) => CombinaBusca(ToLower(searchTerm), corretoras, c))
  }

  /** A blank search shows every wallet; any search shows an order-preserving
      subsequence, keeping exactly the matching wallets. */
  lemma CarteirasFiltradasSpec(carteiras: seq<Carteira>, corretoras: seq<Corretora>, searchTerm: string)
    ensures (forall i :: 0 <= i < |searchTerm| ==> IsSpace(searchTerm[i]))
              ==> CarteirasFiltradas(carteiras, corretoras, searchTerm) == carteiras
    ensures IsSubseq(CarteirasFiltradas(carteiras, corretoras, searchTerm), carteiras)
    ensures Trim(searchTerm) != "" ==>
              forall c :: c in CarteirasFiltradas(carteiras, corretoras, searchTerm) <==>
                          c in carteiras && CombinaBusca(ToLower(searchTerm), corretoras, c)
    ensures Trim(searchTerm) != "" ==>
              forall c :: multiset(CarteirasFiltradas(carteiras, corretoras, searchTerm))[c] ==
                          if CombinaBusca(ToLower(searchTerm), corretoras, c) then multiset(carteiras)[c] else 0
  {
    TrimEmptyIff(searchTerm);
    var p := (c: Carteira) => CombinaBusca(ToLower(searchTerm), corretoras, c);
    if Trim(searchTerm) == "" {
      SubseqRefl(carteiras);
    } else {
      FilterIsSubseq(carteiras, p);
      forall c
        ensures c in Filter(carteiras, p) <==> c in carteiras && p(c)
        ensures multiset(Filter(carteiras, p))[c] == if p(c) then multiset(carteiras)[c] else 0
      {
        FilterMember(carteiras, p, c);
        FilterCount(carteiras, p, c);
      }
    }
  }

  lemma {:induction false} SubseqRefl<T>(s: seq<T>)
    ensures IsSubseq(s, s)
  {
    if s != [] {
      SubseqRefl(s[1..]);
    }
  }

  /** Whether a status is one of the four of `StatusArquivo`. */
  predicate StatusConhecido(status: string)
  {
    status == PENDENTE || status == PROCESSANDO || status == PROCESSADO || status == ERRO
  }

  /** `getStatusClass`. */
  function GetStatusClass(status: string): string
  {
    if status == PENDENTE then "status-pendente"
    else if status == PROCESSANDO then "status-processando"
    else if status == PROCESSADO then "status-processado"
    else if status == ERRO then "status-erro"
    else ""
  }

  /** `getStatusText`. */
  function GetStatusText(status: string): string
  {
    if status == PENDENTE then "Pendente"
    else if status == PROCESSANDO then "Processando"
    else if status == PROCESSADO then "Processado"
    else if status == ERRO then "Erro"
    else status
  }

  /** A label spelt with a capital followed by no other capital lowers to
      its lowered initial followed by the rest as it is. */
  lemma LowerRotulo(rotulo: string)
    requires |rotulo| > 0
    requires forall i :: 1 <= i < |rotulo| ==> !('A' <= rotulo[i] <= 'Z')
    ensures ToLower(rotulo) == [LowerChar(rotulo[0])] + rotulo[1..]
  {
  }

  /** For such a label, a class made of 'status-', the lowered initial and the
      rest of the label is 'status-' plus the lowered label. */
  lemma ClasseDoRotulo(classe: string, rotulo: string)
    requires |rotulo| > 0
    requires forall i :: 1 <= i < |rotulo| ==> !('A' <= rotulo[i] <= 'Z')
    requires classe == "status-" + ([LowerChar(rotulo[0])] + rotulo[1..])
    ensures classe == "status-" + ToLower(rotulo)
  {
    LowerRotulo(rotulo);
  }

  /** A known status gets the class 'status-' plus its lowered label. */
  lemma StatusClassMatchesText(status: string)
    requires StatusConhecido(status)
    ensures GetStatusClass(status) == "status-" + ToLower(GetStatusText(status))
  {
    if status == PENDENTE {
      ClasseDoRotulo("status-pendente", "Pendente");
    } else if status == PROCESSANDO {
      ClasseDoRotulo("status-processando", "Processando");
    } else if status == PROCESSADO {
      ClasseDoRotulo("status-processado", "Processado");
    } else {
      ClasseDoRotulo("status-erro", "Erro");
    }
  }

  /** An unknown status gets no class and its own text as label; every known
      one gets a non-empty class. */
  lemma StatusUnknown(status: string)
    ensures GetStatusClass(status) == "" <==> !StatusConhecido(status)
    ensures !StatusConhecido(status) ==> GetStatusText(status) == status
  {
  }

  const MsgNaoEncontrada: string := "Carteira não encontrada. Ela pode já ter sido excluída."
  const MsgConflito: string := "Não é possível excluir esta carteira pois ela possui operações associadas."
  const MsgProibido: string := "Você não tem permissão para excluir esta carteira."
  const MsgServidor: string := "Erro interno do servidor. Tente novamente mais tarde."
  const MsgConexao: string := "Erro de conexão. Verifique sua internet e tente novamente."
  const MsgGenerica: string := "Erro ao excluir carteira. Tente novamente."

  /** `getErrorMessage`, by the HTTP status of the failed delete. */
  function GetErrorMessage(status: int): string
  {
    if status == 404 then MsgNaoEncontrada
    else if status == 409 then MsgConflito
    else if status == 403 then MsgProibido
    else if status == 500 then MsgServidor
    else if status == 0 then MsgConexao
    else MsgGenerica
  }

  /** The statuses 404, 409, 403, 500 and 0 get five different messages, none of
      them the generic one, which every other status gets. */
  lemma GetErrorMessageSpec(s1: int, s2: int)
    ensures GetErrorMessage(s1) == MsgGenerica <==> s1 !in {404, 409, 403, 500, 0}
    ensures (s1 in {404, 409, 403, 500, 0} && s2 in {404, 409, 403, 500, 0} && s1 != s2)
              ==> GetErrorMessage(s1) != GetErrorMessage(s2)
  {
    assert |MsgNaoEncontrada| == 55 && |MsgConflito| == 74 && |MsgProibido| == 50;
    assert |MsgServidor| == 53 && |MsgConexao| == 58 && |MsgGenerica| == 42;
  }

  /** The test `c.idCarteira === id` of the wallet lookups. */
  function ComId(id: int): Carteira -> bool
  {
    (c: Carteira) => c.idCarteira == id
  }

  /** The alert text after a wallet is deleted. */
  function MensagemExcluida(nome: string): string
  {
    "Carteira \"" + nome + "\" excluída com sucesso!"
  }

  /** The alert text after a file is processed into `total` operations. */
  function MensagemProcessado(total: nat): string
  {
    "Arquivo processado com sucesso! " + NatToString(total) + " operações criadas."
  }

  const MsgFalhaProcessamento: string := "Erro ao processar arquivo. Tente novamente."
  const MsgSemId: string := "Erro: ID do arquivo não definido"

  /** `replace the first wallet with the same idCarteira`, as the edit branch of
      `onCarteiraSaved` does in place; no match leaves the list as it is. */
  function SubstituirCarteira(carteiras: seq<Carteira>, carteira: Carteira): seq<Carteira>
  {
    match FindIndex(carteiras, ComId(carteira.idCarteira))
    case Some(i) => carteiras[i := carteira]
    case None => carteiras
  }

  /** Only the first wallet with the saved wallet's identifier changes; the length
      and every other entry stay. */
  lemma SubstituirCarteiraSpec(carteiras: seq<Carteira>, carteira: Carteira)
    ensures |SubstituirCarteira(carteiras, carteira)| == |carteiras|
    ensures (forall i :: 0 <= i < |carteiras| ==> carteiras[i].idCarteira != carteira.idCarteira)
              ==> SubstituirCarteira(carteiras, carteira) == carteiras
    ensures forall i :: 0 <= i < |carteiras| && carteiras[i].idCarteira == carteira.idCarteira &&
                        (forall j :: 0 <= j < i ==> carteiras[j].idCarteira != carteira.idCarteira)
              ==> SubstituirCarteira(carteiras, carteira) == carteiras[i := carteira]
  {
    var r := SubstituirCarteira(carteiras, carteira);
    var k := FindIndex(carteiras, ComId(carteira.idCarteira));
    forall i | 0 <= i < |carteiras| && carteiras[i].idCarteira == carteira.idCarteira &&
               (forall j :: 0 <= j < i ==> carteiras[j].idCarteira != carteira.idCarteira)
      ensures r == carteiras[i := carteira]
    {
      assert k.Some?;
      assert k.value == i;
    }
  }

  /** The files of one wallet, as each subscription to the file list filters. */
  function ArquivosDaCarteira(arquivos: seq<Arquivo>, carteiraId: int): seq<Arquivo>
  {
    Filter(arquivos, (a: Arquivo) => a.carteiraId == carteiraId)
  }

  /** A file added at the front of the shared list shows up at the front of
      its own wallet's list and nowhere else; the rest of each list stays. */
  lemma ArquivosDaCarteiraAdd(arquivo: Arquivo, arquivos: seq<Arquivo>, carteiraId: int)
    ensures ArquivosDaCarteira([arquivo] + arquivos, carteiraId) ==
              (if arquivo.carteiraId == carteiraId then [arquivo] else []) + ArquivosDaCarteira(arquivos, carteiraId)
  {
    assert ([arquivo] + arquivos)[1..] == arquivos;
  }

  // ---------------------------------------------------------------- screen

  datatype TipoAlerta = Success | Danger | Warning | Info

  class ImportacaoComponent {
    var carteiras: seq<Carteira>
    var arquivos: seq<Arquivo>
    var corretoras: seq<Corretora>
    var selectedCarteira: Option<Carteira>
    var carteiraParaEdicao: Option<Carteira>
    var showCarteiraForm: bool
    var showFileUpload: bool
    var isLoadingCarteiras: bool
    var isLoadingArquivos: bool
    var searchTerm: string
    var alertMessage: string
    var alertType: TipoAlerta
    var showAlert: bool
    var showDeleteModal: bool
    var carteiraParaExcluir: Option<Carteira>
    var isDeleting: bool
    /** The wallet filter of the latest subscription to the service's file list;
        it is the one that decides `arquivos` on every later emission. */
    var inscricao: Option<int>
    /** The screen's own `ArquivoService` instance. */
    const arquivoService: ArquivoServico.ArquivoService

    /** The service is provided per component, so it arrives fresh and empty. */
    constructor (arquivoService: ArquivoServico.ArquivoService)
      requires arquivoService.arquivos == []
      ensures this.arquivoService == arquivoService && arquivoService.arquivos == []
      ensures carteiras == [] && arquivos == [] && corretoras == []
      ensures selectedCarteira.None? && carteiraParaEdicao.None? && !showCarteiraForm && !showFileUpload
      ensures !isLoadingCarteiras && !isLoadingArquivos && searchTerm == ""
      ensures alertMessage == "" && alertType == Info && !showAlert
      ensures !showDeleteModal && carteiraParaExcluir.None? && !isDeleting && inscricao.None?
    {
      this.arquivoService := arquivoService;
      carteiras, arquivos, corretoras := [], [], [];
      selectedCarteira, carteiraParaEdicao := None, None;
      showCarteiraForm, showFileUpload := false, false;
      isLoadingCarteiras, isLoadingArquivos := false, false;
      searchTerm := "";
      alertMessage, alertType, showAlert := "", Info, false;
      showDeleteModal, carteiraParaExcluir, isDeleting := false, None, false;
      inscricao := None;
    }

    /** `loadCorretoras`: the development broker list. */
    method LoadCorretoras()
      modifies this
      ensures corretoras == CarteiraServico.MockCorretoras()
      ensures unchanged(this`carteiras, this`arquivos, this`selectedCarteira, this`carteiraParaEdicao, this`showCarteiraForm, this`showFileUpload, this`isLoadingCarteiras, this`isLoadingArquivos, this`searchTerm, this`alertMessage, this`alertType, this`showAlert, this`showDeleteModal, this`carteiraParaExcluir, this`isDeleting, this`inscricao)
    {
      corretoras := CarteiraServico.MockCorretoras();
    }

    /** `loadCarteiras`, the request: the list is loading. */
    method LoadCarteiras()
      modifies this
      ensures isLoadingCarteiras
      ensures unchanged(this`carteiras, this`arquivos, this`corretoras, this`selectedCarteira, this`carteiraParaEdicao, this`showCarteiraForm, this`showFileUpload, this`isLoadingArquivos, this`searchTerm, this`alertMessage, this`alertType, this`showAlert, this`showDeleteModal, this`carteiraParaExcluir, this`isDeleting, this`inscricao)
    {
      isLoadingCarteiras := true;
    }

    /** The callbacks of `loadCarteiras`: the server's wallets, or the development
        wallets when the request failed; the first wallet is selected when none is. */
    method CarteirasRecebidas(resposta: Result<seq<Carteira>, ErroHttp>)
      modifies this
      ensures carteiras == if resposta.Ok? then resposta.value else CarteiraServico.MockCarteiras()
      ensures !isLoadingCarteiras
      ensures |carteiras| > 0 && old(selectedCarteira).None? ==>
                && selectedCarteira == Some(carteiras[0])
                && inscricao == Some(carteiras[0].idCarteira)
                && arquivos == ArquivosDaCarteira(arquivoService.arquivos, carteiras[0].idCarteira)
                && !isLoadingArquivos
                && unchanged(this`corretoras, this`carteiraParaEdicao, this`showCarteiraForm, this`showFileUpload, this`searchTerm, this`alertMessage, this`alertType, this`showAlert, this`showDeleteModal, this`carteiraParaExcluir, this`isDeleting)
      ensures !(|carteiras| > 0 && old(selectedCarteira).None?) ==>
                unchanged(this`arquivos, this`corretoras, this`selectedCarteira, this`carteiraParaEdicao, this`showCarteiraForm, this`showFileUpload, this`isLoadingArquivos, this`searchTerm, this`alertMessage, this`alertType, this`showAlert, this`showDeleteModal, this`carteiraParaExcluir, this`isDeleting, this`inscricao)
    {
      var lista := if resposta.Ok? then resposta.value else CarteiraServico.MockCarteiras();
      carteiras := lista;
      isLoadingCarteiras := false;
      if |lista| > 0 && selectedCarteira.None? {
        SelectCarteira(lista[0]);
      }
    }

    /** `selectCarteira`: the wallet becomes the selection and the screen
        subscribes to the service's file list, which replays its current value
        at once; the request `loadArquivosByCarteira` builds is never subscribed
        to, so the server is not asked. */
    method SelectCarteira(carteira: Carteira)
      modifies this
      ensures selectedCarteira == Some(carteira) && inscricao == Some(carteira.idCarteira)
      ensures arquivos == ArquivosDaCarteira(arquivoService.arquivos, carteira.idCarteira)
      ensures !isLoadingArquivos
      ensures unchanged(this`carteiras, this`corretoras, this`carteiraParaEdicao, this`showCarteiraForm, this`showFileUpload, this`isLoadingCarteiras, this`searchTerm, this`alertMessage, this`alertType, this`showAlert, this`showDeleteModal, this`carteiraParaExcluir, this`isDeleting)
    {
      selectedCarteira := Some(carteira);
      isLoadingArquivos := true;
      inscricao := Some(carteira.idCarteira);
      arquivos := ArquivosDaCarteira(arquivoService.arquivos, carteira.idCarteira);
      isLoadingArquivos := false;
    }

    /** `openNovaCarteira`. */
    method OpenNovaCarteira()
      modifies this
      ensures carteiraParaEdicao.None? && showCarteiraForm
      ensures unchanged(this`carteiras, this`arquivos, this`corretoras, this`selectedCarteira, this`showFileUpload, this`isLoadingCarteiras, this`isLoadingArquivos, this`searchTerm, this`alertMessage, this`alertType, this`showAlert, this`showDeleteModal, this`carteiraParaExcluir, this`isDeleting, this`inscricao)
    {
      carteiraParaEdicao := None;
      showCarteiraForm := true;
    }

    /** `openEditarCarteira`. */
    method OpenEditarCarteira(carteira: Carteira)
      modifies this
      ensures carteiraParaEdicao == Some(carteira) && showCarteiraForm
      ensures unchanged(this`carteiras, this`arquivos, this`corretoras, this`selectedCarteira, this`showFileUpload, this`isLoadingCarteiras, this`isLoadingArquivos, this`searchTerm, this`alertMessage, this`alertType, this`showAlert, this`showDeleteModal, this`carteiraParaExcluir, this`isDeleting, this`inscricao)
    {
      carteiraParaEdicao := Some(carteira);
      showCarteiraForm := true;
    }

    /** `onCarteiraSaved`: in edit mode the first wallet with the same identifier
        is replaced, and so is the selection when it has that identifier; in
        create mode the wallet is appended and selected. Either way the form
        closes. */
    method OnCarteiraSaved(carteira: Carteira)
      modifies this
      ensures !showCarteiraForm && carteiraParaEdicao.None?
      ensures old(carteiraParaEdicao).Some? ==>
                var found := FindIndex(old(carteiras), ComId(carteira.idCarteira)).Some?;
                && carteiras == SubstituirCarteira(old(carteiras), carteira)
                && selectedCarteira == (if found && old(selectedCarteira).Some? &&
                                           old(selectedCarteira).value.idCarteira == carteira.idCarteira
                                        then Some(carteira) else old(selectedCarteira))
                && unchanged(this`arquivos, this`corretoras, this`showFileUpload, this`isLoadingCarteiras, this`isLoadingArquivos, this`searchTerm, this`alertMessage, this`alertType, this`showAlert, this`showDeleteModal, this`carteiraParaExcluir, this`isDeleting, this`inscricao)
      ensures old(carteiraParaEdicao).None? ==>
                && carteiras == old(carteiras) + [carteira]
                && selectedCarteira == Some(carteira) && inscricao == Some(carteira.idCarteira)
                && arquivos == ArquivosDaCarteira(arquivoService.arquivos, carteira.idCarteira)
                && !isLoadingArquivos
                && unchanged(this`corretoras, this`showFileUpload, this`isLoadingCarteiras, this`searchTerm, this`alertMessage, this`alertType, this`showAlert, this`showDeleteModal, this`carteiraParaExcluir, this`isDeleting)
    {
      if carteiraParaEdicao.Some? {
        SalvarEdicao(carteira);
      } else {
        carteiras := carteiras + [carteira];
        SelectCarteira(carteira);
      }
      showCarteiraForm := false;
      carteiraParaEdicao := None;
    }

    /** The edit branch of `onCarteiraSaved`: the first wallet with the saved
        wallet's identifier is replaced, and the selection too when it has that
        identifier. */
    method SalvarEdicao(carteira: Carteira)
      modifies this
      ensures carteiras == SubstituirCarteira(old(carteiras), carteira)
      ensures selectedCarteira == (if FindIndex(old(carteiras), ComId(carteira.idCarteira)).Some? &&
                                      old(selectedCarteira).Some? &&
                                      old(selectedCarteira).value.idCarteira == carteira.idCarteira
                                   then Some(carteira) else old(selectedCarteira))
      ensures unchanged(this`arquivos, this`corretoras, this`carteiraParaEdicao, this`showCarteiraForm, this`showFileUpload, this`isLoadingCarteiras, this`isLoadingArquivos, this`searchTerm, this`alertMessage, this`alertType, this`showAlert, this`showDeleteModal, this`carteiraParaExcluir, this`isDeleting, this`inscricao)
    {
      var index := FindIndex(carteiras, ComId(carteira.idCarteira));
      if index.Some? {
        carteiras := carteiras[index.value := carteira];
        if selectedCarteira.Some? && selectedCarteira.value.idCarteira == carteira.idCarteira {
          selectedCarteira := Some(carteira);
        }
      }
    }

    /** `onCarteiraFormCanceled`. */
    method OnCarteiraFormCanceled()
      modifies this
      ensures !showCarteiraForm && carteiraParaEdicao.None?
      ensures unchanged(this`carteiras, this`arquivos, this`corretoras, this`selectedCarteira, this`showFileUpload, this`isLoadingCarteiras, this`isLoadingArquivos, this`searchTerm, this`alertMessage, this`alertType, this`showAlert, this`showDeleteModal, this`carteiraParaExcluir, this`isDeleting, this`inscricao)
    {
      showCarteiraForm := false;
      carteiraParaEdicao := None;
    }

    /** `deletarCarteira`: opens the delete modal for that wallet. */
    method DeletarCarteira(carteira: Carteira)
      modifies this
      ensures carteiraParaExcluir == Some(carteira) && showDeleteModal
      ensures unchanged(this`carteiras, this`arquivos, this`corretoras, this`selectedCarteira, this`carteiraParaEdicao, this`showCarteiraForm, this`showFileUpload, this`isLoadingCarteiras, this`isLoadingArquivos, this`searchTerm, this`alertMessage, this`alertType, this`showAlert, this`isDeleting, this`inscricao)
    {
      carteiraParaExcluir := Some(carteira);
      showDeleteModal := true;
    }

    /** `confirmarExclusaoCarteira`, the request: with no wallet to delete
        nothing happens; otherwise the modal is busy until one of the two
        callbacks below answers. */
    method ConfirmarExclusaoCarteira()
      modifies this
      ensures old(carteiraParaExcluir).None? ==> unchanged(this)
      ensures old(carteiraParaExcluir).Some? ==>
                && isDeleting
                && unchanged(this`carteiras, this`arquivos, this`corretoras, this`selectedCarteira, this`carteiraParaEdicao, this`showCarteiraForm, this`showFileUpload, this`isLoadingCarteiras, this`isLoadingArquivos, this`searchTerm, this`alertMessage, this`alertType, this`showAlert, this`showDeleteModal, this`carteiraParaExcluir, this`inscricao)
    {
      if carteiraParaExcluir.None? {
        return;
      }
      isDeleting := true;
    }

    /** The success callback of the delete request. It reads the wallet from
        `carteiraParaExcluir` when the response arrives, so it needs one there:
        a success alert naming it, the wallet list reload starts, the selection
        and its files are cleared if they were that wallet, and the modal closes. */
    method ExclusaoConcluida()
      requires carteiraParaExcluir.Some?
      modifies this
      ensures var alvo := old(carteiraParaExcluir).value;
              && showAlert && alertType == Success && alertMessage == MensagemExcluida(alvo.nome)
              && (if old(selectedCarteira).Some? && old(selectedCarteira).value.idCarteira == alvo.idCarteira
                  then selectedCarteira.None? && arquivos == []
                  else selectedCarteira == old(selectedCarteira) && arquivos == old(arquivos))
      ensures isLoadingCarteiras
      ensures !showDeleteModal && carteiraParaExcluir.None? && !isDeleting
      ensures unchanged(this`carteiras, this`corretoras, this`carteiraParaEdicao, this`showCarteiraForm, this`showFileUpload, this`isLoadingArquivos, this`searchTerm, this`inscricao)
    {
      var alvo := carteiraParaExcluir.value;
      showAlert := true;
      alertType := Success;
      alertMessage := MensagemExcluida(alvo.nome);
      LoadCarteiras();
      if selectedCarteira.Some? && selectedCarteira.value.idCarteira == alvo.idCarteira {
        selectedCarteira := None;
        arquivos := [];
      }
      FecharModalExclusao();
    }

    /** The error callback of the delete request: an alert chosen by the
        status; the modal stays open for another attempt. */
    method ExclusaoFalhou(erro: ErroHttp)
      modifies this
      ensures showAlert && alertType == Danger && alertMessage == GetErrorMessage(erro.status)
      ensures !isDeleting
      ensures unchanged(this`carteiras, this`arquivos, this`corretoras, this`selectedCarteira, this`carteiraParaEdicao, this`showCarteiraForm, this`showFileUpload, this`isLoadingCarteiras, this`isLoadingArquivos, this`searchTerm, this`showDeleteModal, this`carteiraParaExcluir, this`inscricao)
    {
      showAlert := true;
      alertType := Danger;
      alertMessage := GetErrorMessage(erro.status);
      isDeleting := false;
    }

    /** `fecharModalExclusao`. */
    method FecharModalExclusao()
      modifies this
      ensures !showDeleteModal && carteiraParaExcluir.None? && !isDeleting
      ensures unchanged(this`carteiras, this`arquivos, this`corretoras, this`selectedCarteira, this`carteiraParaEdicao, this`showCarteiraForm, this`showFileUpload, this`isLoadingCarteiras, this`isLoadingArquivos, this`searchTerm, this`alertMessage, this`alertType, this`showAlert, this`inscricao)
    {
      showDeleteModal := false;
      carteiraParaExcluir := None;
      isDeleting := false;
    }

    /** `openUploadArquivo`: without a selected wallet the browser alert is shown
        (`alerta`) and nothing changes; otherwise the upload panel opens. */
    method OpenUploadArquivo() returns (alerta: bool)
      modifies this
      ensures alerta <==> old(selectedCarteira).None?
      ensures alerta ==> unchanged(this)
      ensures !alerta ==> showFileUpload && unchanged(this`carteiras, this`arquivos, this`corretoras, this`selectedCarteira, this`carteiraParaEdicao, this`showCarteiraForm, this`isLoadingCarteiras, this`isLoadingArquivos, this`searchTerm, this`alertMessage, this`alertType, this`showAlert, this`showDeleteModal, this`carteiraParaExcluir, this`isDeleting, this`inscricao)
    {
      if selectedCarteira.None? {
        return true;
      }
      showFileUpload := true;
      return false;
    }

    /** `onUploadComplete`: the file goes first in the service's list; the
        latest subscription refreshes the screen's files; the panel closes. */
    method OnUploadComplete(arquivo: Arquivo)
      modifies this, arquivoService
      ensures arquivoService.arquivos == [arquivo] + old(arquivoService.arquivos)
      ensures !showFileUpload
      ensures old(inscricao).Some? ==>
                && arquivos == ArquivosDaCarteira(arquivoService.arquivos, old(inscricao).value)
                && !isLoadingArquivos
                && unchanged(this`carteiras, this`corretoras, this`selectedCarteira, this`carteiraParaEdicao, this`showCarteiraForm, this`isLoadingCarteiras, this`searchTerm, this`alertMessage, this`alertType, this`showAlert, this`showDeleteModal, this`carteiraParaExcluir, this`isDeleting, this`inscricao)
      ensures old(inscricao).None? ==> unchanged(this`carteiras, this`arquivos, this`corretoras, this`selectedCarteira, this`carteiraParaEdicao, this`showCarteiraForm, this`isLoadingCarteiras, this`isLoadingArquivos, this`searchTerm, this`alertMessage, this`alertType, this`showAlert, this`showDeleteModal, this`carteiraParaExcluir, this`isDeleting, this`inscricao)
    {
      arquivoService.AddArquivo(arquivo);
      if inscricao.Some? {
        arquivos := ArquivosDaCarteira(arquivoService.arquivos, inscricao.value);
        isLoadingArquivos := false;
      }
      showFileUpload := false;
    }

    /** `onUploadCanceled`. */
    method OnUploadCanceled()
      modifies this
      ensures !showFileUpload
      ensures unchanged(this`carteiras, this`arquivos, this`corretoras, this`selectedCarteira, this`carteiraParaEdicao, this`showCarteiraForm, this`isLoadingCarteiras, this`isLoadingArquivos, this`searchTerm, this`alertMessage, this`alertType, this`showAlert, this`showDeleteModal, this`carteiraParaExcluir, this`isDeleting, this`inscricao)
    {
      showFileUpload := false;
    }

    /** `processarArquivo` with the outcome of the processing request (the
        number of operations created, or a failure). It returns at once unless
        the file is PENDENTE and a wallet is selected; a file without
        identifier only raises an error alert; otherwise the outcome is
        announced and loading ends. */
    method ProcessarArquivo(arquivo: Arquivo, resultado: Result<nat, ErroHttp>)
      modifies this
      ensures arquivo.status != PENDENTE || old(selectedCarteira).None? ==> unchanged(this)
      ensures arquivo.status == PENDENTE && old(selectedCarteira).Some? ==> showAlert
      ensures arquivo.status == PENDENTE && old(selectedCarteira).Some? && (arquivo.id.None? || arquivo.id == Some(0)) ==>
                && alertMessage == MsgSemId && alertType == Danger
                && unchanged(this`carteiras, this`arquivos, this`corretoras, this`selectedCarteira, this`carteiraParaEdicao, this`showCarteiraForm, this`showFileUpload, this`isLoadingCarteiras, this`isLoadingArquivos, this`searchTerm, this`showDeleteModal, this`carteiraParaExcluir, this`isDeleting, this`inscricao)
      ensures arquivo.status == PENDENTE && old(selectedCarteira).Some? && arquivo.id.Some? && arquivo.id != Some(0) ==>
                && alertMessage == (if resultado.Ok? then MensagemProcessado(resultado.value) else MsgFalhaProcessamento)
                && alertType == (if resultado.Ok? then Success else Danger)
                && !isLoadingArquivos
                && unchanged(this`carteiras, this`arquivos, this`corretoras, this`selectedCarteira, this`carteiraParaEdicao, this`showCarteiraForm, this`showFileUpload, this`isLoadingCarteiras, this`searchTerm, this`showDeleteModal, this`carteiraParaExcluir, this`isDeleting, this`inscricao)
    {
      if arquivo.status != PENDENTE {
        return;
      }
      if selectedCarteira.None? {
        return;
      }
      if arquivo.id.None? || arquivo.id.value == 0 {
        ShowAlertMessage(MsgSemId, Danger);
        return;
      }
      isLoadingArquivos := true;
      match resultado {
        case Ok(total) =>
          ShowAlertMessage(MensagemProcessado(total), Success);
          isLoadingArquivos := false;
        case Err(_) =>
          ShowAlertMessage(MsgFalhaProcessamento, Danger);
          isLoadingArquivos := false;
      }
    }

    /** `showAlertMessage`; the automatic hiding of success and info alerts is
        a later `HideAlert`. */
    method ShowAlertMessage(message: string, tipo: TipoAlerta)
      modifies this
      ensures alertMessage == message && alertType == tipo && showAlert
      ensures unchanged(this`carteiras, this`arquivos, this`corretoras, this`selectedCarteira, this`carteiraParaEdicao, this`showCarteiraForm, this`showFileUpload, this`isLoadingCarteiras, this`isLoadingArquivos, this`searchTerm, this`showDeleteModal, this`carteiraParaExcluir, this`isDeleting, this`inscricao)
    {
      alertMessage := message;
      alertType := tipo;
      showAlert := true;
    }

    /** `hideAlert`. */
    method HideAlert()
      modifies this
      ensures !showAlert && alertMessage == ""
      ensures unchanged(this`carteiras, this`arquivos, this`corretoras, this`selectedCarteira, this`carteiraParaEdicao, this`showCarteiraForm, this`showFileUpload, this`isLoadingCarteiras, this`isLoadingArquivos, this`searchTerm, this`alertType, this`showDeleteModal, this`carteiraParaExcluir, this`isDeleting, this`inscricao)
    {
      showAlert := false;
      alertMessage := "";
    }
  }
}

=== FILE: modelos.dfy ===
/** The records the screens and services pass around, with the fields the code
    actually reads and writes (src/app/models/arquivo.model.ts and the wallet
    records as importacao.ts and carteira.service.ts use them). */
module Modelos {
  import opened Wrappers

  /** The file states of `StatusArquivo`. The backend's status text is cast to
      this enum unchecked, so a file may carry any other text as well. */
  const PENDENTE: string := "PENDENTE"
  const PROCESSANDO: string := "PROCESSANDO"
  const PROCESSADO: string := "PROCESSADO"
  const ERRO: string := "ERRO"

  /** An imported statement file (`Arquivo`). Dates are milliseconds since the
      epoch; `None` is a field left undefined. */
  datatype Arquivo = Arquivo(
    id: Option<int>,
    nome: string,
    carteiraId: int,
    dataUpload: Option<int>,
    tamanho: int,
    status: string,
    totalOperacoes: Option<int>,
    observacoes: Option<string>)

  /** The broker nested in a wallet record (`carteira.corretora`). */
  datatype CorretoraRef = CorretoraRef(idCorretora: int, nome: string)

  /** A wallet as the screens use it. `ativa` only appears once an update
      request carrying it has been spread over the record. */
  datatype Carteira = Carteira(
    idCarteira: int,
    nome: string,
    excluido: bool,
    corretoraId: Option<int>,
    corretora: Option<CorretoraRef>,
    ativa: Option<bool>)

  /** A broker of the broker list (`Corretora`, keyed by `idCorretora`). */
  datatype Corretora = Corretora(idCorretora: int, nome: string, codigo: Option<string>, ativa: bool)

  /** A file picked in the browser: its name and its size in bytes. */
  datatype File = File(name: string, size: nat)

  /** The failure of an HTTP request, with its status code (0 when the server
      could not be reached). */
  datatype ErroHttp = ErroHttp(status: int)
}

=== FILE: sequences.dfy ===
/** The array operations the front end relies on (`filter`, `find`/`findIndex`,
    `reduce` for sums, and the stable `sort` of ECMAScript), stated once over
    sequences together with the facts the rest of the model uses. */
module Sequences {
  import opened Wrappers

  // ---------------------------------------------------------------- filter

  /** `Array.prototype.filter`: the elements satisfying `p`, in their order. */
  function Filter<T>(s: seq<T>, p: T -> bool): (r: seq<T>)
    ensures |r| <= |s|
    ensures forall i :: 0 <= i < |r| ==> p(r[i])
  {
    if s == [] then [] else (if p(s[0]) then [s[0]] else []) + Filter(s[1..], p)
  }

  /** `a` occurs in `b` in order, possibly with gaps (greedy matching). */
  ghost predicate IsSubseq<T>(a: seq<T>, b: seq<T>)
  {
    if a == [] then true
    else if b == [] then false
    else if a[0] == b[0] then IsSubseq(a[1..], b[1..])
    else IsSubseq(a, b[1..])
  }

  /** A filtered sequence is an order-preserving subsequence of its input. */
  lemma {:induction false} FilterIsSubseq<T>(s: seq<T>, p: T -> bool)
    ensures IsSubseq(Filter(s, p), s)
  {
    if s != [] {
      FilterIsSubseq(s[1..], p);
      var rest := Filter(s[1..], p);
      if p(s[0]) {
        assert Filter(s, p) == [s[0]] + rest;
        assert ([s[0]] + rest)[1..] == rest;
      } else {
        assert Filter(s, p) == rest;
        assert rest != [] ==> p(rest[0]) && rest[0] != s[0];
      }
    }
  }

  /** Optionally taking the head of `[h] + t` keeps a subsequence of `t` a
      subsequence. */
  lemma SubseqStep<T>(take: bool, h: T, a: seq<T>, t: seq<T>)
    requires IsSubseq(a, t)
    requires h !in a
    ensures IsSubseq((if take then [h] else []) + a, [h] + t)
  {
    var b := [h] + t;
    assert b[1..] == t;
    if take {
      assert ([h] + a)[1..] == a;
    } else {
      assert [] + a == a;
    }
  }

  /** Membership in a filtered sequence, both directions. */
  lemma {:induction false} FilterMember<T>(s: seq<T>, p: T -> bool, x: T)
    ensures x in Filter(s, p) <==> x in s && p(x)
  {
    if s != [] {
      FilterMember(s[1..], p, x);
      assert s == [s[0]] + s[1..];
    }
  }

  /** Filtering keeps every occurrence of an element that passes and none of
      one that fails. */
  lemma {:induction false} FilterCount<T>(s: seq<T>, p: T -> bool, x: T)
    ensures multiset(Filter(s, p))[x] == if p(x) then multiset(s)[x] else 0
  {
    if s != [] {
      FilterCount(s[1..], p, x);
      assert s == [s[0]] + s[1..];
    }
  }

  /** Filtering with a predicate that holds of every element changes nothing. */
  lemma {:induction false} FilterAll<T>(s: seq<T>, p: T -> bool)
    requires forall i :: 0 <= i < |s| ==> p(s[i])
    ensures Filter(s, p) == s
  {
    if s != [] {
      FilterAll(s[1..], p);
      assert s == [s[0]] + s[1..];
    }
  }

  /** Two predicates that agree on the elements filter alike. */
  lemma {:induction false} FilterExt<T>(s: seq<T>, p: T -> bool, q: T -> bool)
    requires forall i :: 0 <= i < |s| ==> p(s[i]) == q(s[i])
    ensures Filter(s, p) == Filter(s, q)
  {
    if s != [] {
      FilterExt(s[1..], p, q);
    }
  }

  /** Filtering twice is filtering once by the conjunction. */
  lemma {:induction false} FilterCompose<T>(s: seq<T>, p: T -> bool, q: T -> bool, pq: T -> bool)
    requires forall x :: pq(x) == (p(x) && q(x))
    ensures Filter(Filter(s, p), q) == Filter(s, pq)
  {
    if s != [] {
      FilterCompose(s[1..], p, q, pq);
      var rest := Filter(s[1..], p);
      assert Filter(s, pq) == (if pq(s[0]) then [s[0]] else []) + Filter(s[1..], pq);
      if p(s[0]) {
        var t := [s[0]] + rest;
        assert Filter(s, p) == t;
        assert t[0] == s[0] && t[1..] == rest;
        assert Filter(t, q) == (if q(s[0]) then [s[0]] else []) + Filter(rest, q);
      } else {
        assert Filter(s, p) == rest;
      }
    }
  }

  /** One optional filtering step (`if (c) xs = xs.filter(q)`) applied to a
      sequence already filtered by `p` is one filter by the combined test. */
  lemma FilterStep<T>(s: seq<T>, p: T -> bool, c: bool, q: T -> bool, r: T -> bool)
    requires forall x :: r(x) == (p(x) && (!c || q(x)))
    ensures (if c then Filter(Filter(s, p), q) else Filter(s, p)) == Filter(s, r)
  {
    if c {
      FilterCompose(s, p, q, r);
    } else {
      FilterExt(s, p, r);
    }
  }

  // ---------------------------------------------------------------- find

  /** `Array.prototype.findIndex`, with `None` for JavaScript's -1: the index of
      the first element satisfying `p`. */
  function FindIndex<T>(s: seq<T>, p: T -> bool): (r: Option<nat>)
    ensures r.Some? ==> r.value < |s| && p(s[r.value])
    ensures r.Some? ==> forall j :: 0 <= j < r.value ==> !p(s[j])
    ensures r.None? ==> forall j :: 0 <= j < |s| ==> !p(s[j])
  {
    if s == [] then None
    else if p(s[0]) then Some(0)
    else match FindIndex(s[1..], p)
      case None => None
      case Some(i) => Some(i + 1)
  }

  /** `Array.prototype.find`: the first element satisfying `p`. */
  function Find<T>(s: seq<T>, p: T -> bool): (r: Option<T>)
    ensures r.None? <==> forall j :: 0 <= j < |s| ==> !p(s[j])
    ensures r.Some? ==> exists i :: 0 <= i < |s| && s[i] == r.value && p(s[i]) &&
                                    forall j :: 0 <= j < i ==> !p(s[j])
  {
    match FindIndex(s, p)
    case None => None
    case Some(i) => Some(s[i])
  }

  // ---------------------------------------------------------------- sums

  /** `reduce((sum, x) => sum + f(x), 0)` over exact reals. */
  function SumBy<T>(s: seq<T>, f: T -> real): real
  {
    if s == [] then 0.0 else f(s[0]) + SumBy(s[1..], f)
  }

  /** Summing over the filtered sequence is summing over all elements with the
      rejected ones counted as zero. */
  lemma {:induction false} SumFilter<T>(s: seq<T>, p: T -> bool, f: T -> real, g: T -> real)
    requires forall x :: g(x) == (if p(x) then f(x) else 0.0)
    ensures SumBy(Filter(s, p), f) == SumBy(s, g)
  {
    if s != [] {
      SumFilter(s[1..], p, f, g);
      var rest := Filter(s[1..], p);
      if p(s[0]) {
        var t := [s[0]] + rest;
        assert Filter(s, p) == t;
        assert t[0] == s[0] && t[1..] == rest;
        assert SumBy(t, f) == f(s[0]) + SumBy(rest, f);
      } else {
        assert Filter(s, p) == rest;
      }
    }
  }

  // ---------------------------------------------------------------- sort

  /** `key` does not increase along `s`. */
  ghost predicate SortedDesc<T>(s: seq<T>, key: T -> real)
  {
    forall i, j :: 0 <= i < j < |s| ==> key(s[i]) >= key(s[j])
  }

  /** Inserts `x` before the first element whose key does not exceed its own. */
  function InsertDesc<T>(x: T, s: seq<T>, key: T -> real): seq<T>
  {
    if s == [] then [x]
    else if key(s[0]) <= key(x) then [x] + s
    else [s[0]] + InsertDesc(x, s[1..], key)
  }

  /** `sort((a, b) => key(b) - key(a))`: ECMAScript's sort is stable, and this
      insertion sort is too, since an element goes before the equal keys that
      follow it in the input. */
  function SortDesc<T>(s: seq<T>, key: T -> real): seq<T>
  {
    if s == [] then [] else InsertDesc(s[0], SortDesc(s[1..], key), key)
  }

  lemma {:induction false} InsertDescPerm<T>(x: T, s: seq<T>, key: T -> real)
    ensures multiset(InsertDesc(x, s, key)) == multiset(s) + multiset{x}
    ensures |InsertDesc(x, s, key)| == |s| + 1
  {
    if s != [] && key(s[0]) > key(x) {
      InsertDescPerm(x, s[1..], key);
      assert s == [s[0]] + s[1..];
    }
  }

  /** Inserting keeps every key at most `b` when all keys involved are. */
  lemma {:induction false} InsertDescBound<T>(x: T, s: seq<T>, key: T -> real, b: real)
    requires key(x) <= b
    requires forall i :: 0 <= i < |s| ==> key(s[i]) <= b
    ensures forall i :: 0 <= i < |InsertDesc(x, s, key)| ==> key(InsertDesc(x, s, key)[i]) <= b
  {
    if s != [] && key(s[0]) > key(x) {
      InsertDescBound(x, s[1..], key, b);
    }
  }

  /** Prepending an element whose key bounds the rest keeps the order. */
  lemma SortedDescCons<T>(h: T, t: seq<T>, key: T -> real)
    requires SortedDesc(t, key)
    requires forall i :: 0 <= i < |t| ==> key(t[i]) <= key(h)
    ensures SortedDesc([h] + t, key)
  {
    var r := [h] + t;
    forall i, j | 0 <= i < j < |r|
      ensures key(r[i]) >= key(r[j])
    {
      assert r[j] == t[j - 1];
      if i > 0 {
        assert r[i] == t[i - 1];
      }
    }
  }

  lemma {:induction false} InsertDescSorted<T>(x: T, s: seq<T>, key: T -> real)
    requires SortedDesc(s, key)
    ensures SortedDesc(InsertDesc(x, s, key), key)
  {
    if s == [] {
    } else if key(s[0]) <= key(x) {
      SortedDescCons(x, s, key);
    } else {
      assert SortedDesc(s[1..], key) by {
        forall i, j | 0 <= i < j < |s[1..]|
          ensures key(s[1..][i]) >= key(s[1..][j])
        {
          assert s[1..][i] == s[i + 1] && s[1..][j] == s[j + 1];
        }
      }
      InsertDescSorted(x, s[1..], key);
      forall i | 0 <= i < |s[1..]|
        ensures key(s[1..][i]) <= key(s[0])
      {
        assert s[1..][i] == s[i + 1];
      }
      InsertDescBound(x, s[1..], key, key(s[0]));
      SortedDescCons(s[0], InsertDesc(x, s[1..], key), key);
    }
  }

  /** The sort yields a permutation of its input, ordered by descending key. */
  lemma {:induction false} SortDescProps<T>(s: seq<T>, key: T -> real)
    ensures SortedDesc(SortDesc(s, key), key)
    ensures multiset(SortDesc(s, key)) == multiset(s)
    ensures |SortDesc(s, key)| == |s|
  {
    if s != [] {
      SortDescProps(s[1..], key);
      InsertDescSorted(s[0], SortDesc(s[1..], key), key);
      InsertDescPerm(s[0], SortDesc(s[1..], key), key);
      assert s == [s[0]] + s[1..];
    }
  }

  /** Sorting does not change a sum. */
  lemma {:induction false} SumSortDesc<T>(s: seq<T>, key: T -> real, f: T -> real)
    ensures SumBy(SortDesc(s, key), f) == SumBy(s, f)
  {
    if s != [] {
      SumSortDesc(s[1..], key, f);
      SumInsertDesc(s[0], SortDesc(s[1..], key), key, f);
    }
  }

  lemma {:induction false} SumInsertDesc<T>(x: T, s: seq<T>, key: T -> real, f: T -> real)
    ensures SumBy(InsertDesc(x, s, key), f) == f(x) + SumBy(s, f)
  {
    if s != [] && key(s[0]) > key(x) {
      SumInsertDesc(x, s[1..], key, f);
      var r := [s[0]] + InsertDesc(x, s[1..], key);
      assert r[1..] == InsertDesc(x, s[1..], key);
    } else if s != [] {
      assert ([x] + s)[1..] == s;
    }
  }
}

=== FILE: texto.dfy ===
/** The string operations the screens use: `toLowerCase` (ASCII letters only),
    `trim`, `includes`, `endsWith`, `split(' ')[0]` and number interpolation. */
module Texto {

  /** `toLowerCase` on one character, for the ASCII letters. */
  function LowerChar(c: char): char
  {
    if 'A' <= c <= 'Z' then (c as int + 32) as char else c
  }

  function ToLower(s: string): (r: string)
    ensures |r| == |s|
    ensures forall i :: 0 <= i < |s| ==> r[i] == LowerChar(s[i])
  {
    if s == [] then [] else [LowerChar(s[0])] + ToLower(s[1..])
  }

  /** The white-space characters `trim` removes (space, tab, line feed,
      vertical tab, form feed, carriage return). */
  predicate IsSpace(c: char)
  {
    c == ' ' || '\t' <= c <= '\r'
  }

  function TrimStart(s: string): string
  {
    if s != [] && IsSpace(s[0]) then TrimStart(s[1..]) else s
  }

  function TrimEnd(s: string): string
  {
    if s != [] && IsSpace(s[|s| - 1]) then TrimEnd(s[..|s| - 1]) else s
  }

  function Trim(s: string): string
  {
    TrimEnd(TrimStart(s))
  }

  /** `trim` gives the empty string exactly for the all-white-space strings. */
  lemma {:induction false} TrimEmptyIff(s: string)
    ensures Trim(s) == "" <==> forall i :: 0 <= i < |s| ==> IsSpace(s[i])
  {
    TrimStartEmpty(s);
    TrimStartSuffix(s);
    TrimEndEmpty(TrimStart(s));
  }

  lemma {:induction false} TrimStartEmpty(s: string)
    ensures TrimStart(s) == "" <==> forall i :: 0 <= i < |s| ==> IsSpace(s[i])
  {
    if s != [] && IsSpace(s[0]) {
      TrimStartEmpty(s[1..]);
      assert forall i :: 0 < i < |s| ==> s[i] == s[1..][i - 1];
    }
  }

  lemma {:induction false} TrimEndEmpty(s: string)
    requires s == [] || !IsSpace(s[0])
    ensures TrimEnd(s) == "" <==> s == []
  {
    if s != [] && IsSpace(s[|s| - 1]) {
      TrimEndEmpty(s[..|s| - 1]);
    }
  }

  /** What `TrimStart` keeps is a suffix of its input starting with a non-space. */
  lemma {:induction false} TrimStartSuffix(s: string)
    ensures |TrimStart(s)| <= |s| && TrimStart(s) == s[|s| - |TrimStart(s)|..]
    ensures TrimStart(s) != [] ==> !IsSpace(TrimStart(s)[0])
    ensures forall i :: 0 <= i < |s| - |TrimStart(s)| ==> IsSpace(s[i])
  {
    if s != [] && IsSpace(s[0]) {
      TrimStartSuffix(s[1..]);
      assert forall i :: 0 < i < |s| ==> s[i] == s[1..][i - 1];
    }
  }

  /** `p` is a prefix of `s`. */
  predicate IsPrefix(p: string, s: string)
  {
    |p| <= |s| && s[..|p|] == p
  }

  /** `s.includes(t)`. */
  predicate Contains(s: string, t: string)
  {
    IsPrefix(t, s) || (s != [] && Contains(s[1..], t))
  }

  /** `s.endsWith(suffix)`. */
  predicate EndsWith(s: string, suffix: string)
  {
    |suffix| <= |s| && s[|s| - |suffix|..] == suffix
  }

  /** `s.split(' ')[0]`: the text before the first space, or all of `s`. */
  function FirstWord(s: string): (r: string)
    ensures IsPrefix(r, s)
    ensures ' ' !in r
    ensures r == s || s[|r|] == ' '
  {
    if s == [] || s[0] == ' ' then "" else [s[0]] + FirstWord(s[1..])
  }

  /** The decimal digits of `n`, as a template literal prints a whole number. */
  function NatToString(n: nat): string
  {
    if n < 10 then [DigitChar(n)] else NatToString(n / 10) + [DigitChar(n % 10)]
  }

  function DigitChar(d: nat): char
    requires d < 10
  {
    ('0' as int + d) as char
  }
}

=== FILE: wrappers.dfy ===
/** Optional values and error returns, standing for TypeScript's `undefined`/`null`
    and for the error branch of an Observable. */
module Wrappers {

  datatype Option<+T> = None | Some(value: T)

  datatype Result<+T, +E> = Ok(value: T) | Err(error: E)
}
